=== FILE: README.md ===
# Execution session store and Robot runner, in Dafny

This project models the two pieces of sequential logic inside the execution
session management service:

- **The session store** (`StateManager`). A map from session id to an immutable
  session record. Each record has a status, timestamps, progress counters,
  stats, an artifacts map and a log bounded at `MAX_LOG_LINES` = 1000 entries.
  Every operation of the store is one pure transition. Every mutator leaves
  the store alone for an unknown id and otherwise touches exactly the fields
  its source operation writes. The three read projections (progress, stats,
  logs) are functions returning `Option`.
- **The runner's pure logic** (`RobotRunner`):
  - the Robot Framework command line (`_build_robot_command`), with a parser
    that reads it back;
  - the per-line loop of the worker, as a left fold over already-decoded
    output lines and as a `while` loop proved equal to that fold;
  - the worker's completion: spawn failure, or exit code plus output lines.
  - `request_stop`, which only logs.

Modules:

| module | file | contents |
|---|---|---|
| `Wrappers` | `wrappers.dfy` | `Option` |
| `Text` | `text.dfy` | `str.strip()` over the full `str.isspace()` set, ASCII `lower`/`upper`, `in`, `startswith`, `str(int)` |
| `Sequences` | `sequences.dfy` | the bounded buffer `KeepLast` (`xs[-n:]`) and subsequences |
| `StateManager` | `state_manager.dfy` | records, store operations, the store invariant over any sequence of operations |
| `StateViews` | `state_views.dfy` | `get_progress_view`, `get_stats_view`, `get_logs_view` |
| `RobotCommand` | `robot_command.dfy` | the command builder and its read-back |
| `RobotRunner` | `robot_runner.dfy` | line classification, the loop, worker completion, `request_stop` |

Clock reads (`time.time()`) are `real` parameters, but not one per read.
`append_log` reads the clock twice: once for the entry's timestamp
(`state_manager.py:90`) and once for `updated_at` (`state_manager.py:94`).
`AppendLog` takes a single reading for both. Some operations read the clock
and then call `append_log`. These are `create_session`, `mark_started` and
`mark_finished`, and they take two readings, `now` and `logNow`. The worker's
many reads are collapsed into three readings:

- the operations before the loop use the start reading;
- each output line carries the reading taken while it is handled;
- the operations after the loop use the exit reading.

The model follows `state_manager.py` and `robot_runner.py` as written. The
service layer (`services/session_service.py:41,43,83,88,93`) calls
`initialize_cases`, `set_ui_lock` and three case and lock views, and
`state_manager.py` does not define any of them. So:

- There is no per-case state machine, UI lock or current-case tracking in the
  store.
- Start detection and result detection are two independent `if`s. One line
  can count as both a start and a result.
- Results count whether or not a start was seen.
- The step advance `min(c + 1, max(t, c + 1))` is always `c + 1`, so nothing
  caps the step (`AdvanceStep`). The step can exceed the reported total, and
  the percentage can exceed 100 (`PercentBounds`).
- The stored total can go down. Before any start line, the reported total is
  the step. So three result lines store a total of 3. A following start line
  with no result then stores `max(total, 1)` = 1 (`StoredTotalCanDrop`, and
  `StoredTotalDropExample` with the line "START /").
- `create_session` stamps `created_at == updated_at`, and `mark_started`
  stamps `updated_at = started_at`. In both, the nested `append_log`
  re-stamps `updated_at` right after. The equalities hold only when the two
  clock readings agree, and that is what `CreateSession` and `MarkStarted`
  state.

## Model

| member | source | states |
|---|---|---|
| StateManager.Percent | backend_api/app/state_manager.py:25-29 | 0 when there are no steps; otherwise the percentage times the total equals the step times 100, and it is non-negative for a non-negative step |
| StateManager.PercentBounds | backend_api/app/state_manager.py:25-29 | with a positive total, the percentage is non-negative iff the step is, is at most 100 iff the step is within the total, and is exactly 100 iff the step equals the total |
| StateManager.Get | backend_api/app/state_manager.py:78-81 | the record under the id iff the id is present, otherwise None |
| StateManager.AppendLog | backend_api/app/state_manager.py:84-94 | unknown id: store unchanged; else the log becomes the newest 1000 of old log plus one entry with the upper-cased level, `updatedAt` is the reading, nothing else in that record or in other records changes, and the store invariant is kept |
| StateManager.AppendLogNewest | backend_api/app/state_manager.py:90-93 | the log grows by one until it reaches 1000 and then stays at 1000; it is a suffix of old log plus the new entry, so the oldest entries go first and order is kept; the new entry is last |
| Sequences.KeepLastAppend | backend_api/app/state_manager.py:92-93 | trimming to the newest n and then appending and trimming again equals appending everything and trimming once: the buffer holds the last n entries ever appended |
| StateManager.CreateSession | backend_api/app/state_manager.py:67-75 | the store gains the id and keeps every other record; the new record is PENDING under its own id, created at `now`, not started or finished, zero progress, default stats (duration 0.0, unsuccessful, zero totals, no artifacts), exactly one INFO log entry "Session created." stamped `logNow`; the invariant is kept |
| StateManager.CreateSessionThenLog | backend_api/app/state_manager.py:72-74 | CreateSession equals filing a fresh record and then appending the creation notice with AppendLog |
| StateManager.NewSessionId | backend_api/app/state_manager.py:70 | the id it picks is not yet in the store |
| StateManager.CreateFreshSession | backend_api/app/state_manager.py:67-75 | with a fresh id, the store gains exactly one record |
| StateManager.SetStatus | backend_api/app/state_manager.py:97-104 | unknown id: unchanged; else the status is written as given, `updatedAt` is the reading, and nothing else changes |
| StateManager.SetArtifacts | backend_api/app/state_manager.py:107-114 | the artifacts map becomes the merge: the keys are the union, new values win on shared keys, old values stay on the others; nothing else but `updatedAt` changes |
| StateManager.SetProgress | backend_api/app/state_manager.py:117-125 | both counters are stored clamped below at 0 (each equals the input when non-negative and 0 otherwise); only progress and `updatedAt` change |
| StateManager.MarkStarted | backend_api/app/state_manager.py:128-137 | RUNNING, `startedAt` set, exactly one INFO entry "Execution started." appended to the bounded log; status, start, `updatedAt` and log are the only fields written |
| StateManager.Duration | backend_api/app/state_manager.py:149-152 | never negative; 0 for a falsy start (None or 0.0) or a finish before the start; otherwise finish minus start |
| StateManager.MarkFinished | backend_api/app/state_manager.py:140-158 | COMPLETED iff success, FAILED iff not; success stored; the three totals copied from the map with a missing key giving 0; the duration is `Duration(startedAt, now)` for the given start, so it is never negative; artifacts and progress kept; one INFO summary line appended; only status, finish time, `updatedAt`, stats and log are written |
| StateManager.FinishedMessageReadBack | backend_api/app/state_manager.py:157-158 | the summary line reads back as the success flag and the three totals, negative totals included: the line loses nothing |
| StateManager.MarkFinishedThenLog | backend_api/app/state_manager.py:146-158 | MarkFinished equals updating the record and then appending the summary with AppendLog, which re-stamps `updatedAt` |
| StateManager.ApplyAllKeepsInvariant | backend_api/app/state_manager.py:67-158 | over any sequence of store operations every record stays under its own id with at most 1000 log entries and non-negative counters, and no session is ever removed |
| StateViews.GetProgressView | backend_api/app/state_manager.py:161-170 | None iff the id is unknown; the two counters and their percentage, never negative in a well-formed store |
| StateViews.GetStatsView | backend_api/app/state_manager.py:173-190 | None iff the id is unknown; the stats, with steps completed taken from the progress counter and status and times from the record |
| StateViews.FinishedStatsView | backend_api/app/state_manager.py:140-190 | after `mark_finished` the stats view reports COMPLETED exactly on success, the finish time and a non-negative duration |
| StateViews.WithLevel | backend_api/app/state_manager.py:199-201 | the level filter yields an in-order subsequence of the log holding only entries of that level and every entry of that level, each as often as it occurs (its length is `CountLevel`, the number of entries of that level) |
| StateViews.GetLogsView | backend_api/app/state_manager.py:193-198 | None iff the id is unknown; otherwise `LogsView` of the record's log |
| StateViews.LogsView | backend_api/app/state_manager.py:198-204 | an in-order subsequence of the log; with a level given, only that upper-cased level; a suffix of the filtered entries of length `min(limit, n)` for a positive limit; the whole filtered list for limit 0, a negative limit or no limit |
| StateViews.Trim | backend_api/app/state_manager.py:202-203 | the kept entries are the newest part of the list; `min(limit, n)` of them for a positive limit; all of them for limit 0, a negative limit or no limit |
| StateViews.NewestLogIsLast | backend_api/app/state_manager.py:199-203 | right after appending at a non-empty level, the view for that level with limit 1 is exactly the entry just written |
| Text.Strip | backend_api/app/robot_runner.py:213 | the result is a contiguous slice of the line, whatever is cut off at either end is whitespace, and the result neither starts nor ends with whitespace |
| Text.StripEmptyIffAllSpace | backend_api/app/robot_runner.py:213-215 | a line is skipped exactly when it consists of whitespace only |
| Text.StripNoEdgeSpace | backend_api/app/robot_runner.py:213 | a line without whitespace at either end is left unchanged |
| Text.NatToStringRoundTrip | backend_api/app/robot_runner.py:255 | for a non-negative number, its decimal digits read back as the same number |
| Text.IntToStringRoundTrip | backend_api/app/robot_runner.py:255 | `str(i)` for any integer, negative ones included, read off the front of text that does not continue with a digit, gives back `i` and that text |
| RobotCommand.BuildRobotCommand | backend_api/app/robot_runner.py:54-97 | the command has length 14 + 2·(settings) + 2·(non-empty case names) and is the interpreter with `-m robot`, the ten output arguments, the variable pairs, the case pairs and the target, in that order |
| RobotCommand.VariableArgsAt | backend_api/app/robot_runner.py:79-81 | settings entry i becomes `--variable` at position 2i and `key:value` at 2i+1 |
| RobotCommand.NonEmpty | backend_api/app/robot_runner.py:84-87 | a case name is selected exactly when it is in the list and non-empty |
| RobotCommand.NonEmptyKeepsOrder | backend_api/app/robot_runner.py:84-87 | the selected names are an in-order subsequence of the list, and each non-empty name is selected exactly as often as it occurs (the multiset of the list with the empty name removed) |
| RobotCommand.CaseArgsAt | backend_api/app/robot_runner.py:84-87 | the j-th selected name becomes `--test` at position 2j and the name at 2j+1 |
| RobotCommand.CommandLayout | backend_api/app/robot_runner.py:69-97 | every position of the command: the fixed head, each variable pair in settings order, each selected case pair in list order, and the target last, which is the tests root when no name is given and the joined path otherwise |
| RobotCommand.BuildParseRoundTrip | backend_api/app/robot_runner.py:54-97 | reading the command back gives the interpreter, the output directory, every `key:value` in order, the selected case names in order and the target: the builder loses nothing |
| RobotRunner.StartLineCases | backend_api/app/robot_runner.py:227 | a start is "starting test" in any letter case anywhere in the line, or the prefixes "START /" and "Start test" as written: "Starting TEST: Login", "START / Suite" and "Start test Login" are starts; "start / x" and "start test" are not |
| RobotRunner.ClassifyResult | backend_api/app/robot_runner.py:236-244 | passed iff the lowered line contains "pass"; failed iff it contains "fail" but not "pass"; skipped iff "skip" only; no result iff none of the three |
| RobotRunner.AdvanceStep | backend_api/app/robot_runner.py:238 | the capped-looking advance is always exactly one step |
| RobotRunner.ReportedTotal | backend_api/app/robot_runner.py:250 | the reported total is the step (clamped at 0) while no start was counted, and the counted total afterwards |
| RobotRunner.StepTally | backend_api/app/robot_runner.py:227-244 | a start line adds one to the total; a result line adds one to exactly its counter and advances the step; the step stays the sum of the three counters |
| RobotRunner.StepStore | backend_api/app/robot_runner.py:218-251 | one INFO entry with the stripped line is appended to the bounded log; the stored progress ends as the step over the reported total; only progress, log and `updatedAt` change |
| RobotRunner.StoredTotalCanDrop | backend_api/app/robot_runner.py:227-250 | while no start has been counted the stored total is the step; a start line without a result then stores total 1, lower than before |
| RobotRunner.StoredTotalDropExample | backend_api/app/robot_runner.py:227-250 | from counters with total 0 and step 3 and a stored total of 3, the line "START /" leaves a stored total of 1 |
| RobotRunner.StepLine | backend_api/app/robot_runner.py:212-251 | a blank line changes nothing; any other line is logged once at INFO and updates the counters as classified (start and result independently) and the progress; other records are untouched and the invariant is kept |
| RobotRunner.ConsumeLines | backend_api/app/robot_runner.py:212-251 | the loop touches no other session, leaves the store alone for an unknown id, keeps the store invariant, and writes only progress, log and `updatedAt` of the session |
| RobotRunner.ConsumeLinesInvariants | backend_api/app/robot_runner.py:212-251 | after any prefix of lines: the total counts the start lines, each counter its result lines, the step is their sum, the log is the newest 1000 of the old log plus one INFO entry per non-blank line in order, and once a line was logged the stored progress is the step over the reported total |
| RobotRunner.ConsumeLinesTally | backend_api/app/robot_runner.py:227-244 | the counters after the loop count start lines and each kind of result line |
| RobotRunner.ConsumeLinesLog | backend_api/app/robot_runner.py:213-218 | the log after the loop is the newest 1000 of the old log followed by the logged lines |
| RobotRunner.ConsumeLinesProgress | backend_api/app/robot_runner.py:246-251 | once a line has been logged, the stored progress is the current step over the reported total |
| RobotRunner.HandleLine | backend_api/app/robot_runner.py:213-251 | the loop body as written (strip, skip, log, start check, result check, report) performs exactly one step of the fold |
| RobotRunner.RunLineLoop | backend_api/app/robot_runner.py:212-251 | the loop computes the fold, and its counters equal the start-line and result-line counts of the output |
| RobotRunner.FailRun | backend_api/app/robot_runner.py:198-205 | a spawn failure finishes the session FAILED, unsuccessful, with all three totals 0, the duration `Duration(startedAt, at)` from the worker's own start reading, so never negative, and its artifacts kept; the start and creation times and the progress are kept, and the finish time is the failure reading |
| RobotRunner.SpawnErrorReadBack | backend_api/app/robot_runner.py:199-203 | the ERROR message tells the two spawn failures apart: the missing-executable notice and "Failed to start Robot: " with the reason read back as the failure that caused them |
| RobotRunner.FailRunLog | backend_api/app/robot_runner.py:198-205 | a spawn failure appends exactly one ERROR entry followed by the summary |
| RobotRunner.BeginRun | backend_api/app/robot_runner.py:208-209 | before the loop the session is RUNNING and "Robot process started." is logged; nothing but status, log and `updatedAt` changes |
| RobotRunner.EndRun | backend_api/app/robot_runner.py:253-256 | COMPLETED iff the exit code is 0, FAILED otherwise, success likewise, with the loop's counts as totals, the duration `Duration(startedAt, at)` from the worker's own start reading, and the artifacts kept; the start and creation times and the progress are kept, and the finish time is the exit reading |
| RobotRunner.EndRunLog | backend_api/app/robot_runner.py:253-256 | after the loop exactly two entries are appended: the exit-code line and the summary |
| RobotRunner.ExitMessageReadBack | backend_api/app/robot_runner.py:255 | the exit-code line reads back as the exit code, negative codes included |
| RobotRunner.ExitedRun | backend_api/app/robot_runner.py:207-256 | for a process that ran, the stats count the result lines and the log is the start notice, one entry per non-blank line, the exit-code line and the summary |
| RobotRunner.RunWorker | backend_api/app/robot_runner.py:184-256 | the session never stays RUNNING: COMPLETED iff the process was spawned and exited 0, whatever the counts; on spawn failure one ERROR entry and zero totals; otherwise totals counting the result lines and the full log sequence; the start and creation times are kept, the finish time is the failure or exit reading, and the duration runs from the worker's start reading to that reading; other records untouched and the invariant kept |
| RobotRunner.RequestStop | backend_api/app/robot_runner.py:178-182 | exactly one WARN entry is appended; nothing but the log and `updatedAt` changes, so status, progress, stats and times are untouched |

## Left out

- Threads and the re-entrant lock: each store operation that writes a record is one atomic transition, and `ApplyAll` applies them in the order the lock serialises them.
- StateViews.GetProgressView, StateViews.GetStatsView and StateViews.GetLogsView: the views hold the lock only inside `get` and read the live record after it is released. The model gives them an atomic snapshot, so a half-applied update seen by a concurrent reader is not modelled. Examples are a step from one `set_progress` next to the total from the previous one, or COMPLETED before the totals are written. The counter and percentage relation and the subsequence property hold only for that snapshot.
- `subprocess.Popen` and `proc.wait`: the process is an input, either a spawn error or a sequence of output lines with an exit code. Which exception types Popen raises is left to the caller. The message of any error other than a missing executable is a string parameter.
- `_iter_stream` byte decoding (UTF-8 with a Latin-1 fallback, trailing newline removed): the model starts from decoded lines.
- `_ensure_output_dir`, `time.strftime`, `os.getcwd`, `os.path.isdir`: filesystem and clock access. `os.path.join` is an opaque function parameter of the builder.
- `_load_robot_settings`: YAML and file I/O. The settings are an input, a sequence of key/value pairs in the map's iteration order.
- `RobotRunner.start`: the orchestration around the worker. It makes the `mark_started`, `set_artifacts` and two `append_log` calls, each modelled on its own, then starts the thread.
- `uuid4`: replaced by `NewSessionId`, which picks some id not in the store. `CreateSession` takes the id as a parameter.
- StateManager.AppendLog: one reading stamps both the entry and `updatedAt`, where the source reads the clock twice; so the equality of the two is the model's, not a promise of the source.
- RobotRunner.RunWorker: the worker's clock reads (`set_status`, each `append_log`, each `set_progress`, `mark_finished`) are collapsed into the start, per-line and exit readings, so equalities between their timestamps are the model's, not the source's.
- RobotCommand.VariableText: each settings pair is given as the text `str()` makes of its key and value; formatting a non-string YAML value (`True`, `None`, `3`) is not modelled.
- `get` hands out the live mutable record in Python. The model returns a value, so mutation through that alias is not modelled.
- StateManager.Percent: does not model `round(..., 2)`; the percentage is exact, because reals here carry no float rounding.
- StateManager.Duration: does not model `round(..., 3)` or floating-point subtraction; times are exact reals.
- Text.Lower: maps ASCII letters only, because Unicode case mapping tables are outside the model; `Text.Upper` likewise. A level or a line with non-ASCII letters may be cased differently by Python.
- Text.IntToString: `str()` is modelled on integers only; `str(message)` on non-string messages is not, because every caller passes strings.
- `session_service.py`, the Flask routes, `schemas.py`, `error_handlers.py`, the application factory and `run.py`: HTTP, serialisation and startup plumbing. The per-case state machine, UI lock and current-case views that the service layer calls are not part of this model, because `state_manager.py` does not define them.

=== FILE: robot_command.dfy ===
/**
 * The Robot Framework command line the runner spawns, and a parser that
 * reads it back. The interpreter path and the path-joining function are
 * parameters: both come from the operating system.
 */
module RobotCommand {
  import opened Wrappers
  import opened Sequences

  /** The ten fixed output-artifact arguments following `-m robot`. */
  function OutputArgs(outputDir: string): seq<string> {
    ["--outputdir", outputDir,
     "--report", "report.html",
     "--log", "log.html",
     "--xunit", "xunit.xml",
     "--output", "output.xml"]
  }

  /** The `key:value` text passed for one settings entry. */
  function VariableText(entry: (string, string)): string {
    entry.0 + ":" + entry.1
  }

  /** One `--variable key:value` pair per settings entry, in iteration order. */
  function VariableArgs(vars: seq<(string, string)>): (r: seq<string>)
    ensures |r| == 2 * |vars|
  {
    if |vars| == 0 then [] else ["--variable", VariableText(vars[0])] + VariableArgs(vars[1..])
  }

  /** Entry `i` of the settings becomes the pair at positions `2i` and `2i + 1`. */
  lemma {:induction false} VariableArgsAt(vars: seq<(string, string)>, i: nat)
    requires i < |vars|
    ensures VariableArgs(vars)[2 * i] == "--variable" && VariableArgs(vars)[2 * i + 1] == VariableText(vars[i])
    decreases i
  {
    if i > 0 {
      VariableArgsAt(vars[1..], i - 1);
      assert VariableArgs(vars) == ["--variable", VariableText(vars[0])] + VariableArgs(vars[1..]);
    }
  }

  /**
   * The case names that are selected: the non-empty ones. A name is kept
   * exactly when it is in the list and non-empty; NonEmptyKeepsOrder adds
   * that the kept names stay in list order and keep their repetitions.
   */
  function NonEmpty(cases: seq<string>): (r: seq<string>)
    ensures forall x :: x in r <==> x in cases && x != ""
    ensures |r| <= |cases|
  {
    if |cases| == 0 then []
    else
      var rest := NonEmpty(cases[1..]);
      assert forall x :: x in cases <==> x == cases[0] || x in cases[1..];
      if cases[0] != "" then [cases[0]] + rest else rest
  }

  /**
   * The selected names are the list with its empty names deleted: in list
   * order, and each non-empty name exactly as often as it occurs.
   */
  lemma {:induction false} NonEmptyKeepsOrder(cases: seq<string>)
    ensures IsSubsequence(NonEmpty(cases), cases)
    ensures multiset(NonEmpty(cases)) == multiset(cases)["" := 0]
    decreases |cases|
  {
    if |cases| > 0 {
      NonEmptyKeepsOrder(cases[1..]);
      assert cases == [cases[0]] + cases[1..];
      if cases[0] != "" {
        assert NonEmpty(cases)[1..] == NonEmpty(cases[1..]);
      }
    }
  }

  /** `test_cases` is truthy only when it is present and non-empty. */
  function SelectedCases(testCases: Option<seq<string>>): seq<string> {
    if testCases.Some? then NonEmpty(testCases.value) else []
  }

  /** One `--test name` pair per non-empty name, skipping the empty ones. */
  function CaseArgs(cases: seq<string>): (r: seq<string>)
    ensures |r| == 2 * |NonEmpty(cases)|
  {
    if |cases| == 0 then []
    else if cases[0] != "" then ["--test", cases[0]] + CaseArgs(cases[1..])
    else CaseArgs(cases[1..])
  }

  /** The `j`-th selected name becomes the pair at positions `2j` and `2j + 1`. */
  lemma {:induction false} CaseArgsAt(cases: seq<string>, j: nat)
    requires j < |NonEmpty(cases)|
    ensures CaseArgs(cases)[2 * j] == "--test" && CaseArgs(cases)[2 * j + 1] == NonEmpty(cases)[j]
    decreases |cases|
  {
    var rest := cases[1..];
    if cases[0] == "" {
      CaseArgsAt(rest, j);
    } else if j > 0 {
      CaseArgsAt(rest, j - 1);
      assert CaseArgs(cases) == ["--test", cases[0]] + CaseArgs(rest);
      assert NonEmpty(cases) == [cases[0]] + NonEmpty(rest);
    }
  }

  /** The positional target: the root alone unless a non-empty name is given. */
  function Target(join: (string, string) -> string, testsRoot: string, testName: Option<string>): string {
    if testName.Some? && testName.value != "" then join(testsRoot, testName.value) else testsRoot
  }

  /**
   * `_build_robot_command`: interpreter, `-m robot`, the ten output arguments,
   * the variables, the selected cases, and the target last.
   */
  function BuildRobotCommand(python: string, join: (string, string) -> string, testsRoot: string,
                             testName: Option<string>, testCases: Option<seq<string>>,
                             outputDir: string, robotVars: seq<(string, string)>): (cmd: seq<string>)
    ensures |cmd| == 14 + 2 * |robotVars| + 2 * |SelectedCases(testCases)|
    ensures cmd[..3] == [python, "-m", "robot"]
    ensures cmd[3..13] == OutputArgs(outputDir)
    ensures cmd[13..13 + 2 * |robotVars|] == VariableArgs(robotVars)
    ensures cmd[13 + 2 * |robotVars|..|cmd| - 1] == TestSelection(testCases)
    ensures cmd[|cmd| - 1] == Target(join, testsRoot, testName)
  {
    var invoke, output, vars, tests, target :=
      [python, "-m", "robot"], OutputArgs(outputDir), VariableArgs(robotVars), TestSelection(testCases),
      [Target(join, testsRoot, testName)];
    ConcatParts(invoke, output, vars, tests, target);
    invoke + output + vars + tests + target
  }

  /**
   * The command spelled out position by position: the fixed head, one
   * `--variable key:value` pair per settings entry in order, one `--test name`
   * pair per non-empty case name in order, and the target last, which is the
   * tests root itself when no test name is given.
   */
  lemma CommandLayout(python: string, join: (string, string) -> string, testsRoot: string,
                      testName: Option<string>, testCases: Option<seq<string>>,
                      outputDir: string, robotVars: seq<(string, string)>)
    ensures var cmd := BuildRobotCommand(python, join, testsRoot, testName, testCases, outputDir, robotVars);
      && |cmd| == 14 + 2 * |robotVars| + 2 * |SelectedCases(testCases)|
      && cmd[0] == python && cmd[1] == "-m" && cmd[2] == "robot"
      && cmd[3] == "--outputdir" && cmd[4] == outputDir
      && cmd[5] == "--report" && cmd[6] == "report.html"
      && cmd[7] == "--log" && cmd[8] == "log.html"
      && cmd[9] == "--xunit" && cmd[10] == "xunit.xml"
      && cmd[11] == "--output" && cmd[12] == "output.xml"
      && (forall i | 0 <= i < |robotVars| ::
            cmd[13 + 2 * i] == "--variable" && cmd[13 + 2 * i + 1] == VariableText(robotVars[i]))
      && (forall j | 0 <= j < |SelectedCases(testCases)| ::
            && cmd[13 + 2 * |robotVars| + 2 * j] == "--test"
            && cmd[13 + 2 * |robotVars| + 2 * j + 1] == SelectedCases(testCases)[j])
      && ((testName.None? || testName.value == "") ==> cmd[|cmd| - 1] == testsRoot)
      && (testName.Some? && testName.value != "" ==> cmd[|cmd| - 1] == join(testsRoot, testName.value))
  {
    CommandHead(python, join, testsRoot, testName, testCases, outputDir, robotVars);
    CommandVariables(python, join, testsRoot, testName, testCases, outputDir, robotVars);
    CommandCases(python, join, testsRoot, testName, testCases, outputDir, robotVars);
  }

  lemma CommandHead(python: string, join: (string, string) -> string, testsRoot: string,
                      testName: Option<string>, testCases: Option<seq<string>>,
                      outputDir: string, robotVars: seq<(string, string)>)
    ensures var cmd := BuildRobotCommand(python, join, testsRoot, testName, testCases, outputDir, robotVars);
      && cmd[0] == python && cmd[1] == "-m" && cmd[2] == "robot"
      && cmd[3] == "--outputdir" && cmd[4] == outputDir
      && cmd[5] == "--report" && cmd[6] == "report.html"
      && cmd[7] == "--log" && cmd[8] == "log.html"
      && cmd[9] == "--xunit" && cmd[10] == "xunit.xml"
      && cmd[11] == "--output" && cmd[12] == "output.xml"
  {
    var cmd := BuildRobotCommand(python, join, testsRoot, testName, testCases, outputDir, robotVars);
    assert cmd[0] == cmd[..3][0] && cmd[1] == cmd[..3][1] && cmd[2] == cmd[..3][2];
    forall k | 3 <= k < 13 ensures cmd[k] == OutputArgs(outputDir)[k - 3] {
      assert cmd[k] == cmd[3..13][k - 3];
    }
  }

  lemma CommandVariables(python: string, join: (string, string) -> string, testsRoot: string,
                      testName: Option<string>, testCases: Option<seq<string>>,
                      outputDir: string, robotVars: seq<(string, string)>)
    ensures var cmd := BuildRobotCommand(python, join, testsRoot, testName, testCases, outputDir, robotVars);
      forall i | 0 <= i < |robotVars| ::
        cmd[13 + 2 * i] == "--variable" && cmd[13 + 2 * i + 1] == VariableText(robotVars[i])
  {
    var head := [python, "-m", "robot"] + OutputArgs(outputDir);
    var va := VariableArgs(robotVars);
    var rest := TestSelection(testCases) + [Target(join, testsRoot, testName)];
    var cmd := BuildRobotCommand(python, join, testsRoot, testName, testCases, outputDir, robotVars);
    BuildAssembled(python, join, testsRoot, testName, testCases, outputDir, robotVars);
    assert cmd == head + va + rest;
    forall i | 0 <= i < |robotVars|
      ensures cmd[13 + 2 * i] == "--variable" && cmd[13 + 2 * i + 1] == VariableText(robotVars[i])
    {
      VariableArgsAt(robotVars, i);
      IndexInMiddle(head, va, rest, 2 * i);
      IndexInMiddle(head, va, rest, 2 * i + 1);
    }
  }

  lemma CommandCases(python: string, join: (string, string) -> string, testsRoot: string,
                      testName: Option<string>, testCases: Option<seq<string>>,
                      outputDir: string, robotVars: seq<(string, string)>)
    ensures var cmd := BuildRobotCommand(python, join, testsRoot, testName, testCases, outputDir, robotVars);
      forall j | 0 <= j < |SelectedCases(testCases)| ::
        && cmd[13 + 2 * |robotVars| + 2 * j] == "--test"
        && cmd[13 + 2 * |robotVars| + 2 * j + 1] == SelectedCases(testCases)[j]
  {
    var head := [python, "-m", "robot"] + OutputArgs(outputDir) + VariableArgs(robotVars);
    var ta := TestSelection(testCases);
    var rest := [Target(join, testsRoot, testName)];
    var cmd := BuildRobotCommand(python, join, testsRoot, testName, testCases, outputDir, robotVars);
    BuildAssembled(python, join, testsRoot, testName, testCases, outputDir, robotVars);
    if testCases.Some? {
      var cases := testCases.value;
      var sel := NonEmpty(cases);
      assert |head| == 13 + 2 * |robotVars| && ta == CaseArgs(cases) && SelectedCases(testCases) == sel;
      forall j | 0 <= j < |sel|
        ensures cmd[13 + 2 * |robotVars| + 2 * j] == "--test" && cmd[13 + 2 * |robotVars| + 2 * j + 1] == sel[j]
      {
        CaseArgsAt(cases, j);
        IndexInMiddle(head, ta, rest, 2 * j);
        IndexInMiddle(head, ta, rest, 2 * j + 1);
      }
    }
  }

  lemma BuildAssembled(python: string, join: (string, string) -> string, testsRoot: string,
                      testName: Option<string>, testCases: Option<seq<string>>,
                      outputDir: string, robotVars: seq<(string, string)>)
    ensures BuildRobotCommand(python, join, testsRoot, testName, testCases, outputDir, robotVars)
      == [python, "-m", "robot"] + OutputArgs(outputDir) + VariableArgs(robotVars) + TestSelection(testCases)
         + [Target(join, testsRoot, testName)]
  {
  }

  lemma IndexInMiddle(head: seq<string>, middle: seq<string>, rest: seq<string>, k: nat)
    requires k < |middle|
    ensures (head + middle + rest)[|head| + k] == middle[k]
  {
  }

  /** The `--test` arguments: none when `test_cases` is None (or empty). */
  function TestSelection(testCases: Option<seq<string>>): (r: seq<string>)
    ensures |r| == 2 * |SelectedCases(testCases)|
  {
    match testCases
    case None => []
    case Some(cases) => CaseArgs(cases)
  }

  /** What a command line asks Robot to do. */
  datatype Invocation = Invocation(
    python: string,
    outputDir: string,
    variables: seq<string>,
    tests: seq<string>,
    target: string)

  /**
   * Reads leading `flag value` pairs, returning the values and what follows
   * the last pair.
   */
  function TakeFlagged(args: seq<string>, flag: string): (r: (seq<string>, seq<string>))
    ensures |r.1| <= |args|
    decreases |args|
  {
    if |args| >= 2 && args[0] == flag then
      var rest := TakeFlagged(args[2..], flag);
      ([args[1]] + rest.0, rest.1)
    else ([], args)
  }

  /** Reads a command line back into what it asks for, or None if it is not one. */
  function ParseCommand(cmd: seq<string>): Option<Invocation> {
    if |cmd| < 14 || cmd[1..3] != ["-m", "robot"] then None
    else if cmd[3..13] != OutputArgs(cmd[4]) then None
    else
      var middle := cmd[13..|cmd| - 1];
      var vars := TakeFlagged(middle, "--variable");
      var tests := TakeFlagged(vars.1, "--test");
      if tests.1 != [] then None
      else Some(Invocation(cmd[0], cmd[4], vars.0, tests.0, cmd[|cmd| - 1]))
  }

  /** The `key:value` texts of the settings entries, in order. */
  function VariableTexts(vars: seq<(string, string)>): (r: seq<string>)
    ensures |r| == |vars|
  {
    if |vars| == 0 then [] else [VariableText(vars[0])] + VariableTexts(vars[1..])
  }

  lemma {:induction false} TakeVariables(vars: seq<(string, string)>, tail: seq<string>)
    requires |tail| == 0 || tail[0] != "--variable"
    ensures TakeFlagged(VariableArgs(vars) + tail, "--variable") == (VariableTexts(vars), tail)
    decreases |vars|
  {
    if |vars| > 0 {
      TakeVariables(vars[1..], tail);
      var args := VariableArgs(vars) + tail;
      assert VariableArgs(vars) == ["--variable", VariableText(vars[0])] + VariableArgs(vars[1..]);
      assert args[0] == "--variable" && args[1] == VariableText(vars[0]);
      assert args[2..] == VariableArgs(vars[1..]) + tail;
    } else {
      assert VariableArgs(vars) + tail == tail;
    }
  }

  lemma {:induction false} TakeCases(cases: seq<string>)
    ensures TakeFlagged(CaseArgs(cases), "--test") == (NonEmpty(cases), [])
    decreases |cases|
  {
    if |cases| > 0 {
      TakeCases(cases[1..]);
      if cases[0] != "" {
        assert CaseArgs(cases)[2..] == CaseArgs(cases[1..]);
      }
    }
  }

  /**
   * The command line loses nothing the caller asked for: it reads back as the
   * interpreter, the output directory, one `key:value` per variable, the
   * selected case names in order, and the target.
   */
  lemma BuildParseRoundTrip(python: string, join: (string, string) -> string, testsRoot: string,
                            testName: Option<string>, testCases: Option<seq<string>>,
                            outputDir: string, robotVars: seq<(string, string)>)
    ensures ParseCommand(BuildRobotCommand(python, join, testsRoot, testName, testCases, outputDir, robotVars))
      == Some(Invocation(python, outputDir, VariableTexts(robotVars),
                         SelectedCases(testCases), Target(join, testsRoot, testName)))
  {
    var va := VariableArgs(robotVars);
    var ta := TestSelection(testCases);
    var target := Target(join, testsRoot, testName);
    var invoke := [python, "-m", "robot"];
    assert BuildRobotCommand(python, join, testsRoot, testName, testCases, outputDir, robotVars)
      == invoke + OutputArgs(outputDir) + (va + ta) + [target];
    ParseAssembled(python, outputDir, va + ta, target);
    if |ta| > 0 {
      CaseArgsAt(testCases.value, 0);
    }
    TakeVariables(robotVars, ta);
    if testCases.Some? {
      TakeCases(testCases.value);
    }
  }

  /** How ParseCommand reads a line with the fixed head and the target at the end. */
  lemma ParseAssembled(python: string, outputDir: string, middle: seq<string>, target: string)
    ensures ParseCommand([python, "-m", "robot"] + OutputArgs(outputDir) + middle + [target])
      == var vars := TakeFlagged(middle, "--variable");
         var tests := TakeFlagged(vars.1, "--test");
         if tests.1 != [] then None else Some(Invocation(python, outputDir, vars.0, tests.0, target))
  {
    var invoke := [python, "-m", "robot"];
    var cmd := invoke + OutputArgs(outputDir) + middle + [target];
    ConcatParts(invoke, OutputArgs(outputDir), middle, [target], []);
    assert cmd == invoke + OutputArgs(outputDir) + middle + [target] + [];
    assert cmd[1..3] == invoke[1..3];
    assert cmd[4] == cmd[3..13][1];
    ParseCommandParts(cmd, python, outputDir, middle, target);
  }

  /** ParseCommand on a line whose parts are known. */
  lemma ParseCommandParts(cmd: seq<string>, python: string, outputDir: string, middle: seq<string>, target: string)
    requires |cmd| == 14 + |middle|
    requires cmd[0] == python && cmd[1..3] == ["-m", "robot"] && cmd[4] == outputDir
    requires cmd[3..13] == OutputArgs(outputDir) && cmd[13..|cmd| - 1] == middle && cmd[|cmd| - 1] == target
    ensures ParseCommand(cmd)
      == var vars := TakeFlagged(middle, "--variable");
         var tests := TakeFlagged(vars.1, "--test");
         if tests.1 != [] then None else Some(Invocation(python, outputDir, vars.0, tests.0, target))
  {
  }
}

=== FILE: robot_runner.dfy ===
/**
 * The runner's pure logic: how each line of the Robot process's output is
 * classified, the per-line loop of the worker as a fold over the decoded
 * lines, and how the worker finishes the session. The process itself is an
 * input: either it could not be spawned, or it produced a sequence of lines
 * and an exit code.
 */
module RobotRunner {
  import opened Wrappers
  import opened Text
  import opened Sequences
  import opened StateManager

  /**
   * A line announcing a test: "starting test" anywhere (ignoring case), or a
   * line beginning with "START /" or "Start test" (case as written).
   */
  predicate IsStartLine(text: string) {
    || Contains(Lower(text), "starting test")
    || StartsWith(text, "START /")
    || StartsWith(text, "Start test")
  }

  /**
   * The phrase is found in any letter case; the two prefixes only as written,
   * so a lower-case "start /" or "start test" line is not a start.
   */
  lemma StartLineCases()
    ensures IsStartLine("Starting TEST: Login")
    ensures IsStartLine("START / Suite")
    ensures IsStartLine("Start test Login")
    ensures !IsStartLine("start / x")
    ensures !IsStartLine("start test")
  {
    assert OccursAt(Lower("Starting TEST: Login"), "starting test", 0);
    assert "start / x"[..7][0] != "START /"[0];
    assert "start test"[..10][0] != "Start test"[0];
  }

  datatype LineResult = Passed | Failed | Skipped | NoResult

  /**
   * The result a lower-cased line reports, checked in the order pass, fail,
   * skip: the first of the three substrings found decides.
   */
  function ClassifyResult(lowered: string): (r: LineResult)
    ensures r == Passed <==> Contains(lowered, "pass")
    ensures r == Failed <==> !Contains(lowered, "pass") && Contains(lowered, "fail")
    ensures r == Skipped <==> !Contains(lowered, "pass") && !Contains(lowered, "fail") && Contains(lowered, "skip")
    ensures r == NoResult <==> !Contains(lowered, "pass") && !Contains(lowered, "fail") && !Contains(lowered, "skip")
  {
    if Contains(lowered, "pass") then Passed
    else if Contains(lowered, "fail") then Failed
    else if Contains(lowered, "skip") then Skipped
    else NoResult
  }

  /** The worker's local counters. */
  datatype Tally = Tally(totalSteps: int, currentStep: int, passed: int, failed: int, skipped: int)

  const ZeroTally: Tally := Tally(0, 0, 0, 0, 0)

  /** The loop invariant on the counters: one step per counted result. */
  predicate TallyOk(t: Tally) {
    && t.totalSteps >= 0 && t.passed >= 0 && t.failed >= 0 && t.skipped >= 0
    && t.currentStep == t.passed + t.failed + t.skipped
  }

  /** One already-decoded output line and the clock reading while it is handled. */
  datatype OutputLine = OutputLine(text: string, at: real)

  /** The worker's state between two lines: its counters and the store. */
  datatype LoopState = LoopState(tally: Tally, store: Store)

  /**
   * The step advance written as `min(c + 1, max(t, c + 1))`, which is always
   * `c + 1`: the cap it seems to aim for never applies.
   */
  function AdvanceStep(totalSteps: int, currentStep: int): (r: int)
    ensures r == currentStep + 1
  {
    var next := currentStep + 1;
    if next <= Max(totalSteps, next) then next else Max(totalSteps, next)
  }

  /** The total reported after each line: `max(t, c if t == 0 else t)`. */
  function ReportedTotal(totalSteps: int, currentStep: int): (r: int)
    ensures totalSteps == 0 ==> r == Max(0, currentStep)
    ensures totalSteps > 0 ==> r == totalSteps
  {
    Max(totalSteps, if totalSteps == 0 then currentStep else totalSteps)
  }

  /** The record fields the line loop may change are progress, logs and `updatedAt`. */
  ghost predicate LoopFrame(a: SessionState, b: SessionState) {
    b.(progress := a.progress, logs := a.logs, updatedAt := a.updatedAt) == a
  }

  /**
   * One iteration of the worker's loop. A line that is empty after stripping
   * changes nothing. Any other line is logged once at INFO before it is
   * classified; a start line adds one to the total and reports progress; a
   * result line, independently, adds one to exactly one of passed, failed and
   * skipped and advances the step; then progress is reported again.
   */
  function StepLine(sid: string, st: LoopState, line: OutputLine): (r: LoopState)
    ensures Strip(line.text) == "" ==> r == st
    ensures OthersUnchanged(st.store, r.store, sid)
    ensures sid !in st.store ==> r.store == st.store
    ensures WellFormed(st.store) ==> WellFormed(r.store)
    ensures Strip(line.text) != "" ==>
      var text := Strip(line.text);
      var res := ClassifyResult(Lower(text));
      && r.tally.totalSteps == st.tally.totalSteps + (if IsStartLine(text) then 1 else 0)
      && r.tally.passed == st.tally.passed + (if res == Passed then 1 else 0)
      && r.tally.failed == st.tally.failed + (if res == Failed then 1 else 0)
      && r.tally.skipped == st.tally.skipped + (if res == Skipped then 1 else 0)
      && r.tally.currentStep == st.tally.currentStep + (if res != NoResult then 1 else 0)
    ensures TallyOk(st.tally) ==> TallyOk(r.tally)
    ensures Strip(line.text) != "" && sid in st.store ==>
      && r.store[sid].logs == KeepLast(st.store[sid].logs + [LogLine(line.at, "INFO", Strip(line.text))], MAX_LOG_LINES)
      && r.store[sid].progress == Progress(Max(0, ReportedTotal(r.tally.totalSteps, r.tally.currentStep)),
                                           Max(0, r.tally.currentStep))
      && r.store[sid].updatedAt == line.at
    ensures sid in st.store ==> LoopFrame(st.store[sid], r.store[sid])
  {
    var text := Strip(line.text);
    if text == "" then st
    else
      var t := StepTally(st.tally, text);
      LoopState(t, StepStore(sid, st.store, st.tally.currentStep, t, IsStartLine(text), text, line.at))
  }

  /**
   * The counters after one non-blank line: a start line adds one to the
   * total, and a result line adds one to its counter and advances the step.
   */
  function StepTally(t: Tally, text: string): (r: Tally)
    ensures var res := ClassifyResult(Lower(text));
      && r.totalSteps == t.totalSteps + (if IsStartLine(text) then 1 else 0)
      && r.passed == t.passed + (if res == Passed then 1 else 0)
      && r.failed == t.failed + (if res == Failed then 1 else 0)
      && r.skipped == t.skipped + (if res == Skipped then 1 else 0)
      && r.currentStep == t.currentStep + (if res != NoResult then 1 else 0)
    ensures TallyOk(t) ==> TallyOk(r)
  {
    var total := if IsStartLine(text) then t.totalSteps + 1 else t.totalSteps;
    var res := ClassifyResult(Lower(text));
    var current := if res == NoResult then t.currentStep else AdvanceStep(total, t.currentStep);
    Tally(total, current,
          if res == Passed then t.passed + 1 else t.passed,
          if res == Failed then t.failed + 1 else t.failed,
          if res == Skipped then t.skipped + 1 else t.skipped)
  }

  /**
   * The store writes for one non-blank line: log it at INFO, report the new
   * total if the line is a start line (with the step from before the line),
   * then report the step over the reported total.
   */
  function StepStore(sid: string, store: Store, before: int, t: Tally, started: bool, text: string, at: real): (r: Store)
    ensures OthersUnchanged(store, r, sid)
    ensures sid !in store ==> r == store
    ensures WellFormed(store) ==> WellFormed(r)
    ensures sid in store ==>
      && sid in r
      && r[sid].logs == KeepLast(store[sid].logs + [LogLine(at, "INFO", text)], MAX_LOG_LINES)
      && r[sid].progress == Progress(Max(0, ReportedTotal(t.totalSteps, t.currentStep)), Max(0, t.currentStep))
      && r[sid].updatedAt == at
      && LoopFrame(store[sid], r[sid])
  {
    UpperIdentity("INFO");
    var s1 := AppendLog(store, sid, "INFO", text, at);
    var s2 := if started then SetProgress(s1, sid, before, Max(t.totalSteps, 1), at) else s1;
    SetProgress(s2, sid, t.currentStep, ReportedTotal(t.totalSteps, t.currentStep), at)
  }

  /**
   * The stored total can go down. While no start line has been seen, the
   * stored total is the step. A later start line with no result first
   * reports `max(total, 1)`, which is 1, and then the new total, also 1.
   */
  lemma StoredTotalCanDrop(sid: string, st: LoopState, line: OutputLine)
    requires sid in st.store
    requires st.tally.totalSteps == 0 && st.tally.currentStep > 1
    requires Strip(line.text) != "" && IsStartLine(Strip(line.text))
    requires ClassifyResult(Lower(Strip(line.text))) == NoResult
    requires st.store[sid].progress.totalSteps == ReportedTotal(st.tally.totalSteps, st.tally.currentStep)
    ensures StepLine(sid, st, line).store[sid].progress.totalSteps == 1
    ensures StepLine(sid, st, line).store[sid].progress.totalSteps < st.store[sid].progress.totalSteps
  {
  }

  /**
   * The drop on a concrete run: after three result lines and no start the
   * stored total is 3, and the bare start line "START /" brings it to 1.
   */
  lemma StoredTotalDropExample(sid: string, store: Store, at: real)
    requires sid in store && store[sid].progress.totalSteps == 3
    ensures StepLine(sid, LoopState(Tally(0, 3, 3, 0, 0), store), OutputLine("START /", at)).store[sid].progress.totalSteps == 1
  {
    BareStartStrip();
    BareStartLine();
    BareStartNoResult();
    StoredTotalCanDrop(sid, LoopState(Tally(0, 3, 3, 0, 0), store), OutputLine("START /", at));
  }

  /** "START /" survives the strip. */
  lemma BareStartStrip()
    ensures Strip("START /") == "START /"
  {
    var text := "START /";
    GraphicNotSpace(text[0]);
    GraphicNotSpace(text[|text| - 1]);
    StripNoEdgeSpace(text);
  }

  /** "START /" is a start line. */
  lemma BareStartLine()
    ensures IsStartLine("START /")
  {
    assert StartsWith("START /", "START /");
  }

  /** "START /" reports no result: it holds none of `p`, `f` and `k`. */
  lemma BareStartNoResult()
    ensures ClassifyResult(Lower("START /")) == NoResult
  {
    var text := "START /";
    LowerAvoids(text, 'p');
    LowerAvoids(text, 'f');
    LowerAvoids(text, 'k');
    NotContainsMissing(Lower(text), "pass", 0);
    NotContainsMissing(Lower(text), "fail", 0);
    NotContainsMissing(Lower(text), "skip", 1);
  }

  lemma StepLineNonBlank(sid: string, st: LoopState, line: OutputLine)
    requires Strip(line.text) != ""
    ensures var text := Strip(line.text);
      var t := StepTally(st.tally, text);
      StepLine(sid, st, line) == LoopState(t, StepStore(sid, st.store, st.tally.currentStep, t, IsStartLine(text), text, line.at))
  {
  }

  lemma StepStoreWrites(sid: string, store: Store, before: int, t: Tally, started: bool, text: string, at: real)
    ensures var s1 := AppendLog(store, sid, "INFO", text, at);
      var s2 := if started then SetProgress(s1, sid, before, Max(t.totalSteps, 1), at) else s1;
      StepStore(sid, store, before, t, started, text, at) == SetProgress(s2, sid, t.currentStep, ReportedTotal(t.totalSteps, t.currentStep), at)
  {
  }

  /** The loop over the output lines, as a left fold of StepLine. */
  function ConsumeLines(sid: string, st: LoopState, lines: seq<OutputLine>): (r: LoopState)
    ensures OthersUnchanged(st.store, r.store, sid)
    ensures sid !in st.store ==> r.store == st.store
    ensures WellFormed(st.store) ==> WellFormed(r.store)
    ensures sid in st.store ==> LoopFrame(st.store[sid], r.store[sid])
    decreases |lines|
  {
    if |lines| == 0 then st
    else StepLine(sid, ConsumeLines(sid, st, lines[..|lines| - 1]), lines[|lines| - 1])
  }

  /** The entry one line logs: none for a blank line, else the stripped text at INFO. */
  function LineEntry(line: OutputLine): (r: seq<LogLine>)
    ensures |r| <= 1
    ensures |r| == 1 <==> Strip(line.text) != ""
    ensures |r| == 1 ==> r[0].level == "INFO" && r[0].message != ""
  {
    var text := Strip(line.text);
    if text == "" then [] else [LogLine(line.at, "INFO", text)]
  }

  /** The entries the loop logs: one INFO entry per non-blank line, stripped, in order. */
  function Logged(lines: seq<OutputLine>): (r: seq<LogLine>)
    ensures |r| <= |lines|
    ensures forall i | 0 <= i < |r| :: r[i].level == "INFO" && r[i].message != ""
  {
    if |lines| == 0 then []
    else Logged(lines[..|lines| - 1]) + LineEntry(lines[|lines| - 1])
  }

  /** The number of non-blank start lines. */
  function CountStarts(lines: seq<OutputLine>): nat {
    if |lines| == 0 then 0
    else
      var text := Strip(lines[|lines| - 1].text);
      CountStarts(lines[..|lines| - 1]) + (if text != "" && IsStartLine(text) then 1 else 0)
  }

  /** The number of non-blank lines classified as `kind`. */
  function CountResults(lines: seq<OutputLine>, kind: LineResult): nat {
    if |lines| == 0 then 0
    else
      var text := Strip(lines[|lines| - 1].text);
      CountResults(lines[..|lines| - 1], kind) + (if text != "" && ClassifyResult(Lower(text)) == kind then 1 else 0)
  }

  /** The counters after the loop: each counts its kind of line, and the step is their sum. */
  lemma {:induction false} ConsumeLinesTally(sid: string, st: LoopState, lines: seq<OutputLine>)
    requires TallyOk(st.tally)
    ensures var r := ConsumeLines(sid, st, lines);
      && TallyOk(r.tally)
      && r.tally.totalSteps == st.tally.totalSteps + CountStarts(lines)
      && r.tally.passed == st.tally.passed + CountResults(lines, Passed)
      && r.tally.failed == st.tally.failed + CountResults(lines, Failed)
      && r.tally.skipped == st.tally.skipped + CountResults(lines, Skipped)
    decreases |lines|
  {
    if |lines| > 0 {
      ConsumeLinesTally(sid, st, lines[..|lines| - 1]);
      ConsumeLinesLast(sid, st, lines);
      CountsLast(lines);
    }
  }

  /** One step of the loop appends the line's entry, if any, to the bounded log. */
  lemma StepLineLog(sid: string, st: LoopState, line: OutputLine)
    requires sid in st.store && |st.store[sid].logs| <= MAX_LOG_LINES
    ensures sid in StepLine(sid, st, line).store
    ensures StepLine(sid, st, line).store[sid].logs == KeepLast(st.store[sid].logs + LineEntry(line), MAX_LOG_LINES)
  {
    if Strip(line.text) == "" {
      assert st.store[sid].logs + LineEntry(line) == st.store[sid].logs;
    }
  }

  lemma ConsumeLinesLast(sid: string, st: LoopState, lines: seq<OutputLine>)
    requires |lines| > 0
    ensures ConsumeLines(sid, st, lines) == StepLine(sid, ConsumeLines(sid, st, lines[..|lines| - 1]), lines[|lines| - 1])
  {
  }

  lemma LoggedLast(lines: seq<OutputLine>)
    requires |lines| > 0
    ensures Logged(lines) == Logged(lines[..|lines| - 1]) + LineEntry(lines[|lines| - 1])
  {
  }

  lemma CountsLast(lines: seq<OutputLine>)
    requires |lines| > 0
    ensures var pre, text := lines[..|lines| - 1], Strip(lines[|lines| - 1].text);
      && CountStarts(lines) == CountStarts(pre) + (if text != "" && IsStartLine(text) then 1 else 0)
      && CountResults(lines, Passed) == CountResults(pre, Passed) + (if text != "" && ClassifyResult(Lower(text)) == Passed then 1 else 0)
      && CountResults(lines, Failed) == CountResults(pre, Failed) + (if text != "" && ClassifyResult(Lower(text)) == Failed then 1 else 0)
      && CountResults(lines, Skipped) == CountResults(pre, Skipped) + (if text != "" && ClassifyResult(Lower(text)) == Skipped then 1 else 0)
  {
  }

  /** A logged line leaves the step over the reported total as the stored progress. */
  lemma StepLineProgress(sid: string, st: LoopState, line: OutputLine)
    requires TallyOk(st.tally) && sid in st.store && Strip(line.text) != ""
    ensures var r := StepLine(sid, st, line);
      sid in r.store && r.store[sid].progress == Progress(ReportedTotal(r.tally.totalSteps, r.tally.currentStep), r.tally.currentStep)
  {
  }

  /** The log after the loop: the newest entries of the old log followed by the logged lines. */
  lemma {:induction false} ConsumeLinesLog(sid: string, st: LoopState, lines: seq<OutputLine>)
    requires sid in st.store && |st.store[sid].logs| <= MAX_LOG_LINES
    ensures sid in ConsumeLines(sid, st, lines).store
    ensures ConsumeLines(sid, st, lines).store[sid].logs == KeepLast(st.store[sid].logs + Logged(lines), MAX_LOG_LINES)
    decreases |lines|
  {
    var base := st.store[sid].logs;
    if |lines| == 0 {
      assert base + Logged(lines) == base;
    } else {
      var pre, last := lines[..|lines| - 1], lines[|lines| - 1];
      ConsumeLinesLog(sid, st, pre);
      var prev := ConsumeLines(sid, st, pre);
      StepLineLog(sid, prev, last);
      ConsumeLinesLast(sid, st, lines);
      LoggedLast(lines);
      KeepLastFold(base, Logged(pre), LineEntry(last), prev.store[sid].logs,
                   ConsumeLines(sid, st, lines).store[sid].logs, MAX_LOG_LINES);
    }
  }

  /** Once a line has been logged, the stored progress is the step over the reported total. */
  lemma {:induction false} ConsumeLinesProgress(sid: string, st: LoopState, lines: seq<OutputLine>)
    requires TallyOk(st.tally) && sid in st.store && |Logged(lines)| > 0
    ensures var r := ConsumeLines(sid, st, lines);
      sid in r.store && r.store[sid].progress == Progress(ReportedTotal(r.tally.totalSteps, r.tally.currentStep), r.tally.currentStep)
    decreases |lines|
  {
    var pre, last := lines[..|lines| - 1], lines[|lines| - 1];
    ConsumeLinesTally(sid, st, pre);
    ConsumeLinesLast(sid, st, lines);
    if Strip(last.text) == "" {
      LoggedLast(lines);
      ConsumeLinesProgress(sid, st, pre);
    } else {
      StepLineProgress(sid, ConsumeLines(sid, st, pre), last);
    }
  }

  /**
   * What the loop has done after any prefix of lines: the local total counts
   * the start lines; passed, failed and skipped count the lines of each
   * result; the step equals their sum; the log holds the newest
   * MAX_LOG_LINES of the old log followed by one INFO entry per non-blank
   * line; and once a line has been logged, the stored progress is the
   * current step over the reported total.
   */
  lemma {:induction false} ConsumeLinesInvariants(sid: string, st: LoopState, lines: seq<OutputLine>)
    requires TallyOk(st.tally) && WellFormed(st.store)
    ensures var r := ConsumeLines(sid, st, lines);
      && TallyOk(r.tally)
      && r.tally.totalSteps == st.tally.totalSteps + CountStarts(lines)
      && r.tally.passed == st.tally.passed + CountResults(lines, Passed)
      && r.tally.failed == st.tally.failed + CountResults(lines, Failed)
      && r.tally.skipped == st.tally.skipped + CountResults(lines, Skipped)
      && (sid in st.store ==> r.store[sid].logs == KeepLast(st.store[sid].logs + Logged(lines), MAX_LOG_LINES))
      && (sid in st.store && |Logged(lines)| > 0 ==>
            r.store[sid].progress == Progress(ReportedTotal(r.tally.totalSteps, r.tally.currentStep), r.tally.currentStep))
  {
    ConsumeLinesTally(sid, st, lines);
    if sid in st.store {
      ConsumeLinesLog(sid, st, lines);
      if |Logged(lines)| > 0 {
        ConsumeLinesProgress(sid, st, lines);
      }
    }
  }

  /**
   * The body of the worker's loop as written: strip, skip a blank line, log
   * it, detect a start, detect a result in the order pass, fail, skip, and
   * report progress. It performs exactly one StepLine.
   */
  method HandleLine(sid: string, t: Tally, store: Store, line: OutputLine) returns (t': Tally, out: Store)
    ensures LoopState(t', out) == StepLine(sid, LoopState(t, store), line)
  {
    var totalSteps, currentStep, passed, failed, skipped := t.totalSteps, t.currentStep, t.passed, t.failed, t.skipped;
    out := store;
    var text := Strip(line.text);
    if text != "" {
      out := AppendLog(out, sid, "INFO", text, line.at);
      var lowered := Lower(text);
      var started := IsStartLine(text);
      if started {
        totalSteps := totalSteps + 1;
        out := SetProgress(out, sid, currentStep, Max(totalSteps, 1), line.at);
      }
      var result := ClassifyResult(lowered);
      if result == Passed {
        passed := passed + 1;
        currentStep := AdvanceStep(totalSteps, currentStep);
      } else if result == Failed {
        failed := failed + 1;
        currentStep := AdvanceStep(totalSteps, currentStep);
      } else if result == Skipped {
        skipped := skipped + 1;
        currentStep := AdvanceStep(totalSteps, currentStep);
      }
      out := SetProgress(out, sid, currentStep, ReportedTotal(totalSteps, currentStep), line.at);
      ghost var next := StepTally(t, text);
      assert totalSteps == next.totalSteps && currentStep == next.currentStep;
      assert passed == next.passed && failed == next.failed && skipped == next.skipped;
      StepLineNonBlank(sid, LoopState(t, store), line);
      StepStoreWrites(sid, store, t.currentStep, next, started, text, line.at);
    }
    t' := Tally(totalSteps, currentStep, passed, failed, skipped);
  }

  /**
   * The worker's loop over the output lines. It computes the fold above, so
   * its counters satisfy the loop invariants: the total counts start lines,
   * each counter its kind of result line, and the step is their sum.
   */
  method RunLineLoop(sid: string, store: Store, lines: seq<OutputLine>) returns (tally: Tally, out: Store)
    ensures TallyOk(tally)
    ensures tally.totalSteps == CountStarts(lines)
    ensures tally.passed == CountResults(lines, Passed)
    ensures tally.failed == CountResults(lines, Failed)
    ensures tally.skipped == CountResults(lines, Skipped)
    ensures LoopState(tally, out) == ConsumeLines(sid, LoopState(ZeroTally, store), lines)
  {
    tally, out := ZeroTally, store;
    var i := 0;
    while i < |lines|
      invariant 0 <= i <= |lines|
      invariant LoopState(tally, out) == ConsumeLines(sid, LoopState(ZeroTally, store), lines[..i])
    {
      ConsumeLinesStep(sid, LoopState(ZeroTally, store), lines, i);
      tally, out := HandleLine(sid, tally, out, lines[i]);
      i := i + 1;
    }
    assert lines[..i] == lines;
    ConsumeLinesTally(sid, LoopState(ZeroTally, store), lines);
  }

  /** Handling one more line extends the fold by one StepLine. */
  lemma ConsumeLinesStep(sid: string, st: LoopState, lines: seq<OutputLine>, i: nat)
    requires i < |lines|
    ensures ConsumeLines(sid, st, lines[..i + 1]) == StepLine(sid, ConsumeLines(sid, st, lines[..i]), lines[i])
  {
    assert lines[..i + 1][..i] == lines[..i];
  }

  /** Why the Robot process could not be spawned. */
  datatype SpawnError = ExecutableNotFound | LaunchError(reason: string)

  /** What the spawned process did, seen from the worker. */
  datatype ProcessRun =
    | SpawnFailed(error: SpawnError, at: real)
    | Exited(lines: seq<OutputLine>, returnCode: int, exitedAt: real)

  /**
   * The missing-executable notice. It is written as two literals so that the
   * verifier sees its characters; a single long literal stays opaque to it.
   */
  const NotFoundMessage := "Robot not found. " + "Ensure Robot Framework is installed."

  /** Reads an ERROR line written for a failed spawn back into its cause. */
  function ParseSpawnError(m: string): Option<SpawnError> {
    if m == NotFoundMessage then Some(ExecutableNotFound)
    else
      var reason :- Expect(m, "Failed to start Robot: ");
      Some(LaunchError(reason))
  }

  /** The ERROR line logged when the process cannot be spawned. */
  function SpawnErrorMessage(e: SpawnError): string {
    match e
    case ExecutableNotFound => NotFoundMessage
    case LaunchError(reason) => "Failed to start Robot: " + reason
  }

  /**
   * The cause of a failed spawn reads back from its ERROR line: a missing
   * executable, or the text of any other error.
   */
  lemma SpawnErrorReadBack(e: SpawnError)
    ensures ParseSpawnError(SpawnErrorMessage(e)) == Some(e)
  {
    if e.LaunchError? {
      var m := "Failed to start Robot: " + e.reason;
      assert m[0] != NotFoundMessage[0];
      ExpectConcat("Failed to start Robot: ", e.reason);
    }
  }

  /** Reads the exit line back into the return code. */
  function ParseExitMessage(m: string): Option<int> {
    var a :- Expect(m, "Robot process finished with code ");
    var code := ReadInt(a);
    if code.1 == "." then Some(code.0) else None
  }

  /** The INFO line logged when the process exits. */
  function ExitMessage(returnCode: int): string {
    "Robot process finished with code " + (IntToString(returnCode) + ".")
  }

  /**
   * The return code, negative for a process ended by a signal, reads back
   * from the exit line.
   */
  lemma ExitMessageReadBack(returnCode: int)
    ensures ParseExitMessage(ExitMessage(returnCode)) == Some(returnCode)
  {
    ExpectConcat("Robot process finished with code ", IntToString(returnCode) + ".");
    IntToStringRoundTrip(returnCode, ".");
  }

  /** The totals dictionary handed to `mark_finished`. */
  function Totals(t: Tally): map<string, int> {
    map["passed" := t.passed, "failed" := t.failed, "skipped" := t.skipped]
  }

  lemma TotalsLookup(t: Tally)
    ensures "passed" in Totals(t) && Totals(t)["passed"] == t.passed
    ensures "failed" in Totals(t) && Totals(t)["failed"] == t.failed
    ensures "skipped" in Totals(t) && Totals(t)["skipped"] == t.skipped
  {
    assert "passed" != "failed" && "passed" != "skipped" && "failed" != "skipped";
  }

  /** The run succeeded exactly when the process was spawned and exited with code 0. */
  predicate Succeeded(run: ProcessRun) {
    run.Exited? && run.returnCode == 0
  }

  /**
   * `_run_worker` after the clock read `startedAt`. On a spawn failure it logs
   * one ERROR line and finishes the session as failed with zero totals. Otherwise
   * it sets RUNNING, logs the start, runs the line loop, logs the exit code
   * and finishes the session, successful exactly when the exit code is 0
   * whatever the parsed counts say: an output full of failure lines still
   * ends COMPLETED with code 0. The session never stays RUNNING. The stats
   * count the result lines of the output, and the log holds, newest last,
   * the start notice, one INFO entry per non-blank output line, the
   * exit-code line and the summary.
   */
  function RunWorker(st: Store, sid: string, startedAt: real, run: ProcessRun): (r: Store)
    ensures sid !in st ==> r == st
    ensures OthersUnchanged(st, r, sid)
    ensures WellFormed(st) ==> WellFormed(r)
    ensures sid in st ==> (r[sid].status == COMPLETED <==> Succeeded(run))
    ensures sid in st ==> (r[sid].status == FAILED <==> !Succeeded(run))
    ensures sid in st ==> r[sid].stats.success == Succeeded(run)
    ensures sid in st ==> r[sid].stats.durationSeconds >= 0.0
    ensures sid in st ==> r[sid].stats.artifacts == st[sid].stats.artifacts
    ensures sid in st ==> r[sid].startedAt == st[sid].startedAt && r[sid].createdAt == st[sid].createdAt
    ensures sid in st ==> r[sid].finishedAt == Some(if run.SpawnFailed? then run.at else run.exitedAt)
    ensures sid in st ==>
      r[sid].stats.durationSeconds == Duration(Some(startedAt), if run.SpawnFailed? then run.at else run.exitedAt)
    ensures sid in st && run.SpawnFailed? ==>
      && r[sid].stats.passed == 0 && r[sid].stats.failed == 0 && r[sid].stats.skipped == 0
      && r[sid].logs == KeepLast(st[sid].logs + [LogLine(run.at, "ERROR", SpawnErrorMessage(run.error)),
                                                 LogLine(run.at, "INFO", FinishedMessage(false, 0, 0, 0))], MAX_LOG_LINES)
    ensures sid in st && run.Exited? ==>
      var p := CountResults(run.lines, Passed);
      var f := CountResults(run.lines, Failed);
      var k := CountResults(run.lines, Skipped);
      && r[sid].stats.passed == p && r[sid].stats.failed == f && r[sid].stats.skipped == k
      && r[sid].logs == KeepLast(st[sid].logs + [LogLine(startedAt, "INFO", "Robot process started.")]
                                 + Logged(run.lines)
                                 + [LogLine(run.exitedAt, "INFO", ExitMessage(run.returnCode)),
                                    LogLine(run.exitedAt, "INFO", FinishedMessage(run.returnCode == 0, p, f, k))],
                                 MAX_LOG_LINES)
  {
    match run
    case SpawnFailed(e, at) =>
      FailRunLog(st, sid, startedAt, e, at);
      FailRun(st, sid, startedAt, e, at)
    case Exited(lines, code, at) =>
      ExitedRun(st, sid, startedAt, lines, code, at);
      EndRun(ConsumeLines(sid, LoopState(ZeroTally, BeginRun(st, sid, startedAt)), lines), sid, startedAt, code, at)
  }

  /** The spawn-failure path: the error is logged and the session finishes FAILED with zero totals. */
  function FailRun(st: Store, sid: string, startedAt: real, e: SpawnError, at: real): (r: Store)
    ensures sid !in st ==> r == st
    ensures OthersUnchanged(st, r, sid)
    ensures WellFormed(st) ==> WellFormed(r)
    ensures sid in st ==>
      && sid in r
      && r[sid].status == FAILED && !r[sid].stats.success
      && r[sid].stats.durationSeconds >= 0.0
      && r[sid].stats.artifacts == st[sid].stats.artifacts
      && r[sid].stats.passed == 0 && r[sid].stats.failed == 0 && r[sid].stats.skipped == 0
      && r[sid].startedAt == st[sid].startedAt && r[sid].createdAt == st[sid].createdAt
      && r[sid].progress == st[sid].progress && r[sid].finishedAt == Some(at)
      && r[sid].stats.durationSeconds == Duration(Some(startedAt), at)
  {
    TotalsLookup(ZeroTally);
    var s1 := AppendLog(st, sid, "ERROR", SpawnErrorMessage(e), at);
    MarkFinished(s1, sid, false, Totals(ZeroTally), Some(startedAt), at, at)
  }

  /** Before the loop: the session goes RUNNING and the start is logged. */
  function BeginRun(st: Store, sid: string, startedAt: real): (r: Store)
    ensures sid !in st ==> r == st
    ensures OthersUnchanged(st, r, sid)
    ensures WellFormed(st) ==> WellFormed(r)
    ensures sid in st ==>
      && r[sid].status == RUNNING
      && r[sid].stats == st[sid].stats
      && r[sid].(status := st[sid].status, logs := st[sid].logs, updatedAt := st[sid].updatedAt) == st[sid]
      && r[sid].logs == KeepLast(st[sid].logs + [LogLine(startedAt, "INFO", "Robot process started.")], MAX_LOG_LINES)
  {
    UpperIdentity("INFO");
    var s1 := SetStatus(st, sid, RUNNING, startedAt);
    AppendLog(s1, sid, "INFO", "Robot process started.", startedAt)
  }

  /**
   * After the loop: the exit code is logged and the session is finished with
   * the loop's counts, successful exactly when the exit code is 0.
   */
  function EndRun(loop: LoopState, sid: string, startedAt: real, code: int, at: real): (r: Store)
    ensures sid !in loop.store ==> r == loop.store
    ensures OthersUnchanged(loop.store, r, sid)
    ensures WellFormed(loop.store) ==> WellFormed(r)
    ensures sid in loop.store ==>
      && sid in r
      && (r[sid].status == COMPLETED <==> code == 0)
      && (r[sid].status == FAILED <==> code != 0)
      && r[sid].stats.success == (code == 0)
      && r[sid].stats.durationSeconds >= 0.0
      && r[sid].stats.artifacts == loop.store[sid].stats.artifacts
      && r[sid].stats.passed == loop.tally.passed
      && r[sid].stats.failed == loop.tally.failed
      && r[sid].stats.skipped == loop.tally.skipped
      && r[sid].startedAt == loop.store[sid].startedAt && r[sid].createdAt == loop.store[sid].createdAt
      && r[sid].progress == loop.store[sid].progress && r[sid].finishedAt == Some(at)
      && r[sid].stats.durationSeconds == Duration(Some(startedAt), at)
  {
    TotalsLookup(loop.tally);
    var s3 := AppendLog(loop.store, sid, "INFO", ExitMessage(code), at);
    MarkFinished(s3, sid, code == 0, Totals(loop.tally), Some(startedAt), at, at)
  }

  /** After the loop, exactly two entries are logged: the exit code and the summary. */
  lemma EndRunLog(loop: LoopState, sid: string, startedAt: real, code: int, at: real)
    requires sid in loop.store
    ensures EndRun(loop, sid, startedAt, code, at)[sid].logs
      == KeepLast(loop.store[sid].logs
           + [LogLine(at, "INFO", ExitMessage(code)),
              LogLine(at, "INFO", FinishedMessage(code == 0, loop.tally.passed, loop.tally.failed, loop.tally.skipped))],
           MAX_LOG_LINES)
  {
    var s3 := AppendLog(loop.store, sid, "INFO", ExitMessage(code), at);
    UpperIdentity("INFO");
    var r := EndRun(loop, sid, startedAt, code, at);
    var summary := FinishedMessage(code == 0, loop.tally.passed, loop.tally.failed, loop.tally.skipped);
    assert r[sid].logs == KeepLast(s3[sid].logs + [LogLine(at, "INFO", summary)], MAX_LOG_LINES);
    KeepLastTwice(loop.store[sid].logs, LogLine(at, "INFO", ExitMessage(code)), LogLine(at, "INFO", summary), MAX_LOG_LINES);
  }

  /** A spawn failure logs exactly one ERROR entry, followed by the summary. */
  lemma FailRunLog(st: Store, sid: string, startedAt: real, e: SpawnError, at: real)
    ensures sid in st ==>
      FailRun(st, sid, startedAt, e, at)[sid].logs
      == KeepLast(st[sid].logs + [LogLine(at, "ERROR", SpawnErrorMessage(e)),
                                  LogLine(at, "INFO", FinishedMessage(false, 0, 0, 0))], MAX_LOG_LINES)
  {
    if sid in st {
      UpperIdentity("ERROR");
      var s1 := AppendLog(st, sid, "ERROR", SpawnErrorMessage(e), at);
      var r := FailRun(st, sid, startedAt, e, at);
      assert r[sid].stats.passed == 0 && r[sid].stats.failed == 0 && r[sid].stats.skipped == 0;
      assert r[sid].logs == KeepLast(s1[sid].logs + [LogLine(at, "INFO", FinishedMessage(false, 0, 0, 0))], MAX_LOG_LINES);
      KeepLastTwice(st[sid].logs, LogLine(at, "ERROR", SpawnErrorMessage(e)),
                    LogLine(at, "INFO", FinishedMessage(false, 0, 0, 0)), MAX_LOG_LINES);
    }
  }

  /**
   * A process that ran: the stats count the result lines of its output, and
   * the log holds the start notice, the logged lines, the exit-code line and
   * the summary.
   */
  lemma ExitedRun(st: Store, sid: string, startedAt: real, lines: seq<OutputLine>, code: int, at: real)
    ensures sid in st ==>
      var r := EndRun(ConsumeLines(sid, LoopState(ZeroTally, BeginRun(st, sid, startedAt)), lines), sid, startedAt, code, at);
      var p := CountResults(lines, Passed);
      var f := CountResults(lines, Failed);
      var k := CountResults(lines, Skipped);
      && r[sid].stats.passed == p && r[sid].stats.failed == f && r[sid].stats.skipped == k
      && r[sid].logs == KeepLast(st[sid].logs + [LogLine(startedAt, "INFO", "Robot process started.")]
                                 + Logged(lines)
                                 + [LogLine(at, "INFO", ExitMessage(code)),
                                    LogLine(at, "INFO", FinishedMessage(code == 0, p, f, k))], MAX_LOG_LINES)
  {
    if sid in st {
      var loop := ConsumeLines(sid, LoopState(ZeroTally, BeginRun(st, sid, startedAt)), lines);
      ExitedLoop(st, sid, startedAt, lines);
      EndRunLog(loop, sid, startedAt, code, at);
      var l1 := st[sid].logs + [LogLine(startedAt, "INFO", "Robot process started.")] + Logged(lines);
      var e1 := LogLine(at, "INFO", ExitMessage(code));
      var e2 := LogLine(at, "INFO", FinishedMessage(code == 0, loop.tally.passed, loop.tally.failed, loop.tally.skipped));
      KeepLastAppend(l1, [e1, e2], MAX_LOG_LINES);
    }
  }

  /** The state the loop leaves when it starts from BeginRun. */
  lemma ExitedLoop(st: Store, sid: string, startedAt: real, lines: seq<OutputLine>)
    requires sid in st
    ensures var loop := ConsumeLines(sid, LoopState(ZeroTally, BeginRun(st, sid, startedAt)), lines);
      && sid in loop.store
      && loop.tally.passed == CountResults(lines, Passed)
      && loop.tally.failed == CountResults(lines, Failed)
      && loop.tally.skipped == CountResults(lines, Skipped)
      && loop.store[sid].logs == KeepLast(st[sid].logs + [LogLine(startedAt, "INFO", "Robot process started.")]
                                          + Logged(lines), MAX_LOG_LINES)
  {
    var base := st[sid].logs;
    var e0 := LogLine(startedAt, "INFO", "Robot process started.");
    var s2 := BeginRun(st, sid, startedAt);
    ConsumeLinesTally(sid, LoopState(ZeroTally, s2), lines);
    ConsumeLinesLog(sid, LoopState(ZeroTally, s2), lines);
    KeepLastAppend(base + [e0], Logged(lines), MAX_LOG_LINES);
  }

  /**
   * `request_stop`: logs one WARN entry and nothing else; the status,
   * progress and stats are untouched, so the run goes on.
   */
  function RequestStop(st: Store, sid: string, now: real): (r: Store)
    ensures sid !in st ==> r == st
    ensures OthersUnchanged(st, r, sid)
    ensures sid in st ==>
      && r[sid].status == st[sid].status && r[sid].progress == st[sid].progress && r[sid].stats == st[sid].stats
      && r[sid].(logs := st[sid].logs, updatedAt := st[sid].updatedAt) == st[sid]
      && r[sid].logs == KeepLast(st[sid].logs + [LogLine(now, "WARN", "Stop requested (not yet implemented).")], MAX_LOG_LINES)
  {
    UpperIdentity("WARN");
    AppendLog(st, sid, "WARN", "Stop requested (not yet implemented).", now)
  }
}

=== FILE: sequences.dfy ===
/** Sequence helpers: bounded suffixes (Python's `xs[-n:]`) and subsequences. */
module Sequences {

  /**
   * The last `n` elements of `xs`, or all of `xs` when it is no longer than
   * `n`. This is Python's `xs[-n:]` for `n > 0`.
   */
  function KeepLast<T>(xs: seq<T>, n: nat): (r: seq<T>)
    ensures |r| == if |xs| <= n then |xs| else n
  {
    if |xs| > n then xs[|xs| - n..] else xs
  }

  /** What KeepLast keeps is a suffix of its input. */
  lemma KeepLastSuffix<T>(xs: seq<T>, n: nat)
    ensures KeepLast(xs, n) == xs[|xs| - |KeepLast(xs, n)|..]
  {
    if |xs| <= n {
      assert xs[0..] == xs;
    }
  }

  /**
   * Trimming to the last `n` and then appending more before trimming again
   * gives the same as appending everything and trimming once: a bounded
   * buffer fed one element at a time holds the last `n` elements ever fed.
   */
  lemma KeepLastAppend<T>(xs: seq<T>, ys: seq<T>, n: nat)
    ensures KeepLast(KeepLast(xs, n) + ys, n) == KeepLast(xs + ys, n)
  {
    if |xs| > n {
      var k := |xs| - n;
      assert KeepLast(xs, n) + ys == (xs + ys)[k..];
    }
  }

  /** Two single appends to a bounded buffer are one append of both. */
  lemma KeepLastTwice<T>(xs: seq<T>, a: T, b: T, n: nat)
    ensures KeepLast(KeepLast(xs + [a], n) + [b], n) == KeepLast(xs + [a, b], n)
  {
    KeepLastAppend(xs + [a], [b], n);
    assert xs + [a] + [b] == xs + [a, b];
  }

  /**
   * A bounded buffer that holds the last `n` of `xs + ys` and is then fed
   * `zs` holds the last `n` of `xs + (ys + zs)`.
   */
  lemma KeepLastFold<T>(xs: seq<T>, ys: seq<T>, zs: seq<T>, before: seq<T>, after: seq<T>, n: nat)
    requires before == KeepLast(xs + ys, n) && after == KeepLast(before + zs, n)
    ensures after == KeepLast(xs + (ys + zs), n)
  {
    KeepLastAppend(xs + ys, zs, n);
    assert xs + ys + zs == xs + (ys + zs);
  }

  /** The five parts of `a + b + c + d + e` can be sliced back out of it. */
  lemma ConcatParts<T>(a: seq<T>, b: seq<T>, c: seq<T>, d: seq<T>, e: seq<T>)
    ensures var x := a + b + c + d + e;
      var i, j, k := |a|, |a| + |b|, |a| + |b| + |c|;
      && x[..i] == a && x[i..j] == b && x[j..k] == c && x[k..|x| - |e|] == d && x[|x| - |e|..] == e
  {
  }

  /** `a` can be obtained from `b` by deleting elements, keeping the order. */
  predicate IsSubsequence<T(==)>(a: seq<T>, b: seq<T>)
    decreases |b|
  {
    || |a| == 0
    || (|b| > 0 && ((a[0] == b[0] && IsSubsequence(a[1..], b[1..])) || IsSubsequence(a, b[1..])))
  }

  lemma {:induction false} SubsequenceDropFirst<T>(a: seq<T>, b: seq<T>)
    requires |a| > 0 && IsSubsequence(a, b)
    ensures IsSubsequence(a[1..], b)
    decreases |b|
  {
    if a[0] == b[0] && IsSubsequence(a[1..], b[1..]) {
    } else {
      SubsequenceDropFirst(a, b[1..]);
    }
  }

  /** Every suffix of a subsequence of `b` is again a subsequence of `b`. */
  lemma {:induction false} SubsequenceSuffix<T>(a: seq<T>, b: seq<T>, k: nat)
    requires k <= |a| && IsSubsequence(a, b)
    ensures IsSubsequence(a[k..], b)
    decreases k
  {
    if k > 0 {
      SubsequenceDropFirst(a, b);
      SubsequenceSuffix(a[1..], b, k - 1);
      assert a[1..][k - 1..] == a[k..];
    }
  }
}

=== FILE: state_manager.dfy ===
/**
 * The session store: a map from session id to an immutable session record,
 * with one pure transition per store operation. Every mutator leaves the
 * store unchanged when the id is unknown, and otherwise touches exactly the
 * fields its source operation writes.
 *
 * Clock reads are parameters. An operation that reads the clock and then
 * calls `append_log` (which reads it again) takes two readings, `now` and
 * `logNow`, because the nested `append_log` re-stamps `updated_at`.
 */
module StateManager {
  import opened Wrappers
  import opened Text
  import opened Sequences

  /** Maximum number of log lines kept per session. */
  const MAX_LOG_LINES: nat := 1000

  const PENDING: string := "PENDING"
  const RUNNING: string := "RUNNING"
  const COMPLETED: string := "COMPLETED"
  const FAILED: string := "FAILED"

  datatype LogLine = LogLine(timestamp: real, level: string, message: string)

  datatype Progress = Progress(totalSteps: int, currentStep: int)

  datatype Stats = Stats(
    durationSeconds: real,
    success: bool,
    passed: int,
    failed: int,
    skipped: int,
    artifacts: map<string, string>)

  datatype SessionState = SessionState(
    sessionId: string,
    status: string,
    createdAt: real,
    updatedAt: real,
    startedAt: Option<real>,
    finishedAt: Option<real>,
    progress: Progress,
    stats: Stats,
    logs: seq<LogLine>)

  type Store = map<string, SessionState>

  function Max(a: int, b: int): int { if a >= b then a else b }

  function MaxReal(a: real, b: real): real { if a >= b then a else b }

  /**
   * The progress percentage, without the rounding to two decimals: 0 when
   * there are no steps, otherwise the share of `currentStep` in `totalSteps`.
   */
  function Percent(p: Progress): (r: real)
    ensures p.totalSteps <= 0 ==> r == 0.0
    ensures p.totalSteps > 0 ==> r * p.totalSteps as real == p.currentStep as real * 100.0
    ensures p.currentStep >= 0 ==> r >= 0.0
  {
    if p.totalSteps <= 0 then 0.0
    else (p.currentStep as real / Max(1, p.totalSteps) as real) * 100.0
  }

  /**
   * The percentage lies in [0, 100] exactly while the step count is within
   * the total, reaches 100 exactly at the total, and passes 100 beyond it.
   */
  lemma PercentBounds(p: Progress)
    requires p.totalSteps > 0
    ensures 0.0 <= Percent(p) <==> 0 <= p.currentStep
    ensures Percent(p) <= 100.0 <==> p.currentStep <= p.totalSteps
    ensures Percent(p) == 100.0 <==> p.currentStep == p.totalSteps
  {
    ScaledCompare(Percent(p), p.currentStep as real, p.totalSteps as real);
  }

  /** With `t > 0` and `r · t == c · 100`, `r` stands to 100 as `c` stands to `t`. */
  lemma ScaledCompare(r: real, c: real, t: real)
    requires t > 0.0 && r * t == c * 100.0
    ensures 0.0 <= r <==> 0.0 <= c
    ensures r <= 100.0 <==> c <= t
    ensures r == 100.0 <==> c == t
  {
    if r <= 100.0 {
      assert r * t <= 100.0 * t;
    } else {
      assert r * t > 100.0 * t;
    }
    if r == 100.0 {
      assert c * 100.0 == 100.0 * t;
    }
    if r >= 0.0 {
      assert r * t >= 0.0;
    } else {
      assert r * t < 0.0;
    }
  }

  /** A fresh record, before its first log line. */
  function NewSession(sid: string, now: real): SessionState {
    SessionState(sid, PENDING, now, now, None, None, Progress(0, 0),
                 Stats(0.0, false, 0, 0, 0, map[]), [])
  }

  /**
   * The store invariant: each record is filed under its own id, its log never
   * exceeds MAX_LOG_LINES, and its progress counters are non-negative.
   */
  ghost predicate WellFormed(st: Store) {
    forall id | id in st ::
      && st[id].sessionId == id
      && |st[id].logs| <= MAX_LOG_LINES
      && st[id].progress.totalSteps >= 0
      && st[id].progress.currentStep >= 0
  }

  /** Only the record under `id` may differ; no id appears or disappears. */
  ghost predicate OthersUnchanged(st: Store, r: Store, id: string) {
    && r.Keys == st.Keys
    && forall k | k in st && k != id :: r[k] == st[k]
  }

  /** `get`: the record under `id`, or None. */
  function Get(st: Store, id: string): (r: Option<SessionState>)
    ensures r.Some? <==> id in st
    ensures r.Some? ==> r.value == st[id]
  {
    if id in st then Some(st[id]) else None
  }

  /**
   * `append_log`: adds one line with the upper-cased level, keeps only the
   * newest MAX_LOG_LINES lines (dropping the oldest first) and bumps
   * `updatedAt`. A no-op for an unknown id.
   */
  function AppendLog(st: Store, id: string, level: string, message: string, now: real): (r: Store)
    ensures id !in st ==> r == st
    ensures OthersUnchanged(st, r, id)
    ensures id in st ==> r[id].logs == KeepLast(st[id].logs + [LogLine(now, Upper(level), message)], MAX_LOG_LINES)
    ensures id in st ==> r[id].updatedAt == now
    ensures id in st ==> r[id].(logs := st[id].logs, updatedAt := st[id].updatedAt) == st[id]
    ensures WellFormed(st) ==> WellFormed(r)
  {
    if id !in st then st
    else
      var s := st[id];
      var logs := KeepLast(s.logs + [LogLine(now, Upper(level), message)], MAX_LOG_LINES);
      st[id := s.(logs := logs, updatedAt := now)]
  }

  /**
   * The log after `append_log` is the old log plus the new line, cut to the
   * newest MAX_LOG_LINES: one line longer until the cap is reached, then the
   * same length, and the new line is always the last one.
   */
  lemma AppendLogNewest(st: Store, id: string, level: string, message: string, now: real)
    requires id in st
    ensures var logs := AppendLog(st, id, level, message, now)[id].logs;
      var all := st[id].logs + [LogLine(now, Upper(level), message)];
      && |logs| == (if |st[id].logs| < MAX_LOG_LINES then |st[id].logs| + 1 else MAX_LOG_LINES)
      && logs == all[|all| - |logs|..]
      && logs[|logs| - 1] == LogLine(now, Upper(level), message)
  {
    var all := st[id].logs + [LogLine(now, Upper(level), message)];
    var logs := AppendLog(st, id, level, message, now)[id].logs;
    assert logs == KeepLast(all, MAX_LOG_LINES);
    KeepLastSuffix(all, MAX_LOG_LINES);
    assert logs[|logs| - 1] == all[|all| - 1];
  }

  /**
   * `create_session` under the id `sid` drawn by the caller: a PENDING record
   * stamped `now`, whose only log line is the creation notice. Other records
   * are untouched. The nested `append_log` re-stamps `updatedAt` with
   * `logNow`, so `createdAt == updatedAt` only when the two readings agree.
   */
  function CreateSession(st: Store, sid: string, now: real, logNow: real): (r: Store)
    ensures r.Keys == st.Keys + {sid}
    ensures forall k | k in st && k != sid :: r[k] == st[k]
    ensures sid !in st ==> |r| == |st| + 1
    ensures r[sid].sessionId == sid && r[sid].status == PENDING
    ensures r[sid].createdAt == now && r[sid].updatedAt == logNow
    ensures r[sid].startedAt.None? && r[sid].finishedAt.None?
    ensures r[sid].progress == Progress(0, 0)
    ensures r[sid].stats == Stats(0.0, false, 0, 0, 0, map[])
    ensures r[sid].logs == [LogLine(logNow, "INFO", "Session created.")]
    ensures WellFormed(st) ==> WellFormed(r)
  {
    st[sid := NewSession(sid, now).(updatedAt := logNow, logs := [LogLine(logNow, "INFO", "Session created.")])]
  }

  /**
   * CreateSession is what the source does: file a fresh record, then
   * `append_log` the creation notice.
   */
  lemma CreateSessionThenLog(st: Store, sid: string, now: real, logNow: real)
    ensures CreateSession(st, sid, now, logNow)
      == AppendLog(st[sid := NewSession(sid, now)], sid, "INFO", "Session created.", logNow)
  {
    var e := LogLine(logNow, "INFO", "Session created.");
    UpperIdentity("INFO");
    assert [] + [e] == [e];
    assert KeepLast([e], MAX_LOG_LINES) == [e];
  }

  /**
   * Picks an id that no record uses yet, standing in for `uuid4()`: a string
   * longer than every id in the store.
   */
  method NewSessionId(st: Store) returns (sid: string)
    ensures sid !in st
  {
    var rest := st.Keys;
    var longest: nat := 0;
    while rest != {}
      invariant rest <= st.Keys
      invariant forall k | k in st && k !in rest :: |k| <= longest
      decreases rest
    {
      var k :| k in rest;
      if |k| > longest {
        longest := |k|;
      }
      rest := rest - {k};
    }
    sid := seq(longest + 1, _ => 'x');
  }

  /** `create_session` with a fresh id: the store gains exactly one record. */
  method CreateFreshSession(st: Store, now: real, logNow: real) returns (sid: string, r: Store)
    ensures sid !in st && r.Keys == st.Keys + {sid} && |r| == |st| + 1
    ensures r == CreateSession(st, sid, now, logNow)
  {
    sid := NewSessionId(st);
    r := CreateSession(st, sid, now, logNow);
  }

  /** `set_status`: writes the status string as given and bumps `updatedAt`. */
  function SetStatus(st: Store, id: string, status: string, now: real): (r: Store)
    ensures id !in st ==> r == st
    ensures OthersUnchanged(st, r, id)
    ensures id in st ==> r[id].status == status && r[id].updatedAt == now
    ensures id in st ==> r[id].(status := st[id].status, updatedAt := st[id].updatedAt) == st[id]
    ensures WellFormed(st) ==> WellFormed(r)
  {
    if id !in st then st
    else st[id := st[id].(status := status, updatedAt := now)]
  }

  /**
   * `set_artifacts`: merges `artifacts` into the stored map (`dict.update`),
   * the new entries winning on a shared key; nothing is removed.
   */
  function SetArtifacts(st: Store, id: string, artifacts: map<string, string>, now: real): (r: Store)
    ensures id !in st ==> r == st
    ensures OthersUnchanged(st, r, id)
    ensures id in st ==> r[id].stats.artifacts.Keys == st[id].stats.artifacts.Keys + artifacts.Keys
    ensures id in st ==> forall k | k in artifacts :: r[id].stats.artifacts[k] == artifacts[k]
    ensures id in st ==> forall k | k in st[id].stats.artifacts && k !in artifacts ::
      r[id].stats.artifacts[k] == st[id].stats.artifacts[k]
    ensures id in st ==> r[id].updatedAt == now
    ensures id in st ==>
      r[id].(stats := r[id].stats.(artifacts := st[id].stats.artifacts), updatedAt := st[id].updatedAt) == st[id]
    ensures WellFormed(st) ==> WellFormed(r)
  {
    if id !in st then st
    else
      var s := st[id];
      st[id := s.(stats := s.stats.(artifacts := s.stats.artifacts + artifacts), updatedAt := now)]
  }

  /**
   * `set_progress`: stores both counters clamped below at 0 and touches
   * nothing but the progress and `updatedAt`.
   */
  function SetProgress(st: Store, id: string, currentStep: int, totalSteps: int, now: real): (r: Store)
    ensures id !in st ==> r == st
    ensures OthersUnchanged(st, r, id)
    ensures id in st ==>
      && r[id].progress.currentStep >= 0 && r[id].progress.totalSteps >= 0
      && (currentStep >= 0 ==> r[id].progress.currentStep == currentStep)
      && (currentStep < 0 ==> r[id].progress.currentStep == 0)
      && (totalSteps >= 0 ==> r[id].progress.totalSteps == totalSteps)
      && (totalSteps < 0 ==> r[id].progress.totalSteps == 0)
    ensures id in st ==> r[id].updatedAt == now
    ensures id in st ==> r[id].(progress := st[id].progress, updatedAt := st[id].updatedAt) == st[id]
    ensures WellFormed(st) ==> WellFormed(r)
  {
    if id !in st then st
    else st[id := st[id].(progress := Progress(Max(0, totalSteps), Max(0, currentStep)), updatedAt := now)]
  }

  /**
   * `mark_started`: RUNNING, `startedAt` stamped `now`, and one INFO line.
   * The nested `append_log` re-stamps `updatedAt` with `logNow`.
   */
  function MarkStarted(st: Store, id: string, now: real, logNow: real): (r: Store)
    ensures id !in st ==> r == st
    ensures OthersUnchanged(st, r, id)
    ensures id in st ==> r[id].status == RUNNING && r[id].startedAt == Some(now)
    ensures id in st ==> r[id].updatedAt == logNow
    ensures id in st ==> r[id].logs == KeepLast(st[id].logs + [LogLine(logNow, "INFO", "Execution started.")], MAX_LOG_LINES)
    ensures id in st ==>
      r[id].(status := st[id].status, startedAt := st[id].startedAt, updatedAt := st[id].updatedAt, logs := st[id].logs) == st[id]
    ensures WellFormed(st) ==> WellFormed(r)
  {
    if id !in st then st
    else
      var s := st[id];
      var s1 := st[id := s.(status := RUNNING, startedAt := Some(now), updatedAt := now)];
      assert Upper("INFO") == "INFO";
      AppendLog(s1, id, "INFO", "Execution started.", logNow)
  }

  /** Python's `totals.get(key, 0)`. */
  function Total(totals: map<string, int>, key: string): int {
    if key in totals then totals[key] else 0
  }

  /** Python's `str(bool)`. */
  function BoolToString(b: bool): string {
    if b then "True" else "False"
  }

  /** Reads `str(bool)` off the front of `s`, with the text after it. */
  function ReadBool(s: string): Option<(bool, string)> {
    if StartsWith(s, "True") then Some((true, s[4..]))
    else if StartsWith(s, "False") then Some((false, s[5..]))
    else None
  }

  lemma BoolReadBack(b: bool, rest: string)
    ensures ReadBool(BoolToString(b) + rest) == Some((b, rest))
  {
    var s := BoolToString(b) + rest;
    assert s[..|BoolToString(b)|] == BoolToString(b);
    if !b {
      assert s[0] == 'F';
    }
  }

  /** Reads a summary line back into the success flag and the three totals. */
  function ParseFinishedMessage(m: string): Option<(bool, int, int, int)> {
    var a :- Expect(m, "Execution finished. Success=");
    var b :- ReadBool(a);
    var c :- Expect(b.1, " (Passed=");
    var passed := ReadInt(c);
    var d :- Expect(passed.1, ", Failed=");
    var failed := ReadInt(d);
    var e :- Expect(failed.1, ", Skipped=");
    var skipped := ReadInt(e);
    if skipped.1 == ")." then Some((b.0, passed.0, failed.0, skipped.0)) else None
  }

  /**
   * The summary line `mark_finished` logs. The concatenation is nested to the
   * right so that each field is followed by the rest of the line as one
   * string, the shape the read-back proof takes apart field by field.
   */
  function FinishedMessage(success: bool, passed: int, failed: int, skipped: int): string {
    "Execution finished. Success=" + (BoolToString(success) + (" (Passed=" + (IntToString(passed)
    + (", Failed=" + (IntToString(failed) + (", Skipped=" + (IntToString(skipped) + ").")))))))
  }

  /**
   * The summary line loses nothing: the success flag and all three totals,
   * negative ones included, read back from it.
   */
  lemma FinishedMessageReadBack(success: bool, passed: int, failed: int, skipped: int)
    ensures ParseFinishedMessage(FinishedMessage(success, passed, failed, skipped))
      == Some((success, passed, failed, skipped))
  {
    var t3 := IntToString(skipped) + ").";
    var t2 := IntToString(failed) + (", Skipped=" + t3);
    var t1 := IntToString(passed) + (", Failed=" + t2);
    var t0 := BoolToString(success) + (" (Passed=" + t1);
    ExpectConcat("Execution finished. Success=", t0);
    BoolReadBack(success, " (Passed=" + t1);
    ExpectConcat(" (Passed=", t1);
    IntToStringRoundTrip(passed, ", Failed=" + t2);
    ExpectConcat(", Failed=", t2);
    IntToStringRoundTrip(failed, ", Skipped=" + t3);
    ExpectConcat(", Skipped=", t3);
    IntToStringRoundTrip(skipped, ").");
  }

  /**
   * The run duration: 0 when the given start time is falsy (None or 0.0),
   * otherwise the elapsed time clamped below at 0.
   */
  function Duration(startedAt: Option<real>, finishedAt: real): (d: real)
    ensures d >= 0.0
    ensures (startedAt.None? || startedAt.value == 0.0) ==> d == 0.0
    ensures startedAt.Some? && startedAt.value != 0.0 && finishedAt >= startedAt.value ==>
      d == finishedAt - startedAt.value
    ensures startedAt.Some? && finishedAt < startedAt.value ==> d == 0.0
  {
    if startedAt.Some? && startedAt.value != 0.0 then MaxReal(0.0, finishedAt - startedAt.value)
    else 0.0
  }

  /**
   * `mark_finished`: COMPLETED exactly when `success`, otherwise FAILED; the
   * stats take the success flag, a non-negative duration and the three totals
   * (a missing key counting 0); the artifacts and progress are kept; one
   * INFO summary line is logged, which re-stamps `updatedAt` with `logNow`.
   */
  function MarkFinished(st: Store, id: string, success: bool, totals: map<string, int>,
                        startedAt: Option<real>, now: real, logNow: real): (r: Store)
    ensures id !in st ==> r == st
    ensures OthersUnchanged(st, r, id)
    ensures id in st ==> (r[id].status == COMPLETED <==> success)
    ensures id in st ==> (r[id].status == FAILED <==> !success)
    ensures id in st ==> r[id].stats.success == success
    ensures id in st ==> r[id].finishedAt == Some(now) && r[id].updatedAt == logNow
    ensures id in st ==> r[id].stats.durationSeconds == Duration(startedAt, now)
    ensures id in st ==> r[id].stats.durationSeconds >= 0.0
    ensures id in st && (startedAt.None? || startedAt.value == 0.0) ==> r[id].stats.durationSeconds == 0.0
    ensures id in st ==>
      && ("passed" in totals ==> r[id].stats.passed == totals["passed"])
      && ("failed" in totals ==> r[id].stats.failed == totals["failed"])
      && ("skipped" in totals ==> r[id].stats.skipped == totals["skipped"])
      && ("passed" !in totals ==> r[id].stats.passed == 0)
      && ("failed" !in totals ==> r[id].stats.failed == 0)
      && ("skipped" !in totals ==> r[id].stats.skipped == 0)
    ensures id in st ==> r[id].stats.artifacts == st[id].stats.artifacts
    ensures id in st ==>
      r[id].logs == KeepLast(st[id].logs + [LogLine(logNow, "INFO",
        FinishedMessage(success, r[id].stats.passed, r[id].stats.failed, r[id].stats.skipped))], MAX_LOG_LINES)
    ensures id in st ==>
      r[id].(status := st[id].status, finishedAt := st[id].finishedAt, updatedAt := st[id].updatedAt,
             stats := st[id].stats, logs := st[id].logs) == st[id]
    ensures WellFormed(st) ==> WellFormed(r)
  {
    if id !in st then st
    else
      var s := st[id];
      var stats := FinishedStats(s.stats, success, totals, startedAt, now);
      var line := LogLine(logNow, "INFO", FinishedMessage(success, stats.passed, stats.failed, stats.skipped));
      st[id := s.(status := if success then COMPLETED else FAILED, finishedAt := Some(now), updatedAt := logNow,
                  stats := stats, logs := KeepLast(s.logs + [line], MAX_LOG_LINES))]
  }

  /** The stats `mark_finished` writes; the artifacts are kept. */
  function FinishedStats(stats: Stats, success: bool, totals: map<string, int>,
                         startedAt: Option<real>, now: real): Stats {
    stats.(durationSeconds := Duration(startedAt, now), success := success,
           passed := Total(totals, "passed"), failed := Total(totals, "failed"),
           skipped := Total(totals, "skipped"))
  }

  /**
   * MarkFinished is what the source does: update the record, then
   * `append_log` the summary, which re-stamps `updatedAt`.
   */
  lemma MarkFinishedThenLog(st: Store, id: string, success: bool, totals: map<string, int>,
                            startedAt: Option<real>, now: real, logNow: real)
    requires id in st
    ensures var stats := FinishedStats(st[id].stats, success, totals, startedAt, now);
      MarkFinished(st, id, success, totals, startedAt, now, logNow)
      == AppendLog(st[id := st[id].(status := if success then COMPLETED else FAILED, finishedAt := Some(now),
                                    updatedAt := now, stats := stats)],
                   id, "INFO", FinishedMessage(success, stats.passed, stats.failed, stats.skipped), logNow)
  {
    UpperIdentity("INFO");
  }

  /** One store operation, with the clock readings it takes. */
  datatype StoreOp =
    | Create(sid: string, now: real, logNow: real)
    | Log(id: string, level: string, message: string, now: real)
    | Status(id: string, status: string, now: real)
    | Artifacts(id: string, artifacts: map<string, string>, now: real)
    | SetSteps(id: string, currentStep: int, totalSteps: int, now: real)
    | Started(id: string, now: real, logNow: real)
    | Finished(id: string, success: bool, totals: map<string, int>, startedAt: Option<real>, now: real, logNow: real)

  function Apply(st: Store, op: StoreOp): Store {
    match op
    case Create(sid, now, logNow) => CreateSession(st, sid, now, logNow)
    case Log(id, level, message, now) => AppendLog(st, id, level, message, now)
    case Status(id, status, now) => SetStatus(st, id, status, now)
    case Artifacts(id, artifacts, now) => SetArtifacts(st, id, artifacts, now)
    case SetSteps(id, c, t, now) => SetProgress(st, id, c, t, now)
    case Started(id, now, logNow) => MarkStarted(st, id, now, logNow)
    case Finished(id, success, totals, startedAt, now, logNow) =>
      MarkFinished(st, id, success, totals, startedAt, now, logNow)
  }

  /** Applies the operations in order, as the lock serialises them. */
  function ApplyAll(st: Store, ops: seq<StoreOp>): Store
    decreases |ops|
  {
    if |ops| == 0 then st else ApplyAll(Apply(st, ops[0]), ops[1..])
  }

  /** One operation keeps the store well formed and removes no session. */
  lemma ApplyKeepsInvariant(st: Store, op: StoreOp)
    requires WellFormed(st)
    ensures WellFormed(Apply(st, op)) && st.Keys <= Apply(st, op).Keys
  {
    match op
    case Create(sid, now, logNow) =>
    case Log(id, level, message, now) =>
    case Status(id, status, now) =>
    case Artifacts(id, artifacts, now) =>
    case SetSteps(id, c, t, now) =>
    case Started(id, now, logNow) =>
    case Finished(id, success, totals, startedAt, now, logNow) =>
  }

  /**
   * Over any sequence of operations the store stays well formed (bounded
   * logs, ids matching keys, non-negative progress) and no session is ever
   * removed.
   */
  lemma {:induction false} ApplyAllKeepsInvariant(st: Store, ops: seq<StoreOp>)
    requires WellFormed(st)
    ensures WellFormed(ApplyAll(st, ops))
    ensures st.Keys <= ApplyAll(st, ops).Keys
    decreases |ops|
  {
    if |ops| > 0 {
      ApplyKeepsInvariant(st, ops[0]);
      ApplyAllKeepsInvariant(Apply(st, ops[0]), ops[1..]);
    }
  }
}

=== FILE: state_views.dfy ===
/**
 * The read projections of the session store: progress, stats and logs. Each
 * returns None for an unknown id and never changes the store.
 */
module StateViews {
  import opened Wrappers
  import opened Text
  import opened Sequences
  import opened StateManager

  datatype ProgressView = ProgressView(totalSteps: int, currentStep: int, percent: real)

  datatype StatsView = StatsView(
    durationSeconds: real,
    stepsCompleted: int,
    success: bool,
    artifacts: map<string, string>,
    passed: int,
    failed: int,
    skipped: int,
    startedAt: Option<real>,
    finishedAt: Option<real>,
    status: string)

  /**
   * `get_progress_view`: the two counters and their percentage. In a well
   * formed store the percentage is never negative.
   */
  function GetProgressView(st: Store, id: string): (r: Option<ProgressView>)
    ensures r.None? <==> id !in st
    ensures r.Some? ==>
      && r.value.totalSteps == st[id].progress.totalSteps
      && r.value.currentStep == st[id].progress.currentStep
      && (r.value.totalSteps <= 0 ==> r.value.percent == 0.0)
      && (r.value.totalSteps > 0 ==> r.value.percent * r.value.totalSteps as real == r.value.currentStep as real * 100.0)
    ensures r.Some? && WellFormed(st) ==> r.value.percent >= 0.0
  {
    match Get(st, id)
    case None => None
    case Some(s) => Some(ProgressView(s.progress.totalSteps, s.progress.currentStep, Percent(s.progress)))
  }

  /**
   * `get_stats_view`: the stats, with `stepsCompleted` taken from the
   * progress counter and the status and start/finish times from the record.
   */
  function GetStatsView(st: Store, id: string): (r: Option<StatsView>)
    ensures r.None? <==> id !in st
    ensures r.Some? ==>
      var s := st[id];
      && r.value.stepsCompleted == s.progress.currentStep
      && r.value.status == s.status
      && r.value.success == s.stats.success
      && r.value.durationSeconds == s.stats.durationSeconds
      && r.value.artifacts == s.stats.artifacts
      && r.value.passed == s.stats.passed && r.value.failed == s.stats.failed && r.value.skipped == s.stats.skipped
      && r.value.startedAt == s.startedAt && r.value.finishedAt == s.finishedAt
  {
    match Get(st, id)
    case None => None
    case Some(s) =>
      Some(StatsView(s.stats.durationSeconds, s.progress.currentStep, s.stats.success, s.stats.artifacts,
                     s.stats.passed, s.stats.failed, s.stats.skipped, s.startedAt, s.finishedAt, s.status))
  }

  /** The number of entries of `logs` whose level is `level`. */
  function CountLevel(logs: seq<LogLine>, level: string): nat {
    if |logs| == 0 then 0
    else (if logs[0].level == level then 1 else 0) + CountLevel(logs[1..], level)
  }

  /**
   * The entries of `logs` whose level is `level`, in order: a subsequence that
   * keeps every matching entry, as often as it occurs, and nothing else.
   */
  function WithLevel(logs: seq<LogLine>, level: string): (r: seq<LogLine>)
    ensures IsSubsequence(r, logs)
    ensures forall i | 0 <= i < |r| :: r[i].level == level
    ensures forall i | 0 <= i < |logs| && logs[i].level == level :: logs[i] in r
    ensures |r| == CountLevel(logs, level)
    ensures |r| <= |logs|
  {
    if |logs| == 0 then []
    else
      var rest := WithLevel(logs[1..], level);
      assert forall i | 1 <= i < |logs| :: logs[i] == logs[1..][i - 1];
      if logs[0].level == level then [logs[0]] + rest else rest
  }

  /** Python's `xs[-n:]` for `n >= 0`: `xs[-0:]` is all of `xs`. */
  function PyTail(xs: seq<LogLine>, n: nat): (r: seq<LogLine>)
    ensures n == 0 ==> r == xs
    ensures n > 0 ==> |r| == (if |xs| <= n then |xs| else n)
    ensures r == xs[|xs| - |r|..]
  {
    if n == 0 then assert xs[0..] == xs; xs
    else KeepLastSuffix(xs, n); KeepLast(xs, n)
  }

  /** A level filter is applied only when the level is truthy (present, non-empty). */
  predicate Truthy(level: Option<string>) {
    level.Some? && level.value != ""
  }

  /** The entries the level filter of `get_logs_view` lets through. */
  function Matching(logs: seq<LogLine>, level: Option<string>): seq<LogLine> {
    if Truthy(level) then WithLevel(logs, Upper(level.value)) else logs
  }

  /** `get_logs_view`: None for an unknown id, else the view of that session's log. */
  function GetLogsView(st: Store, id: string, level: Option<string>, limit: Option<int>): (r: Option<seq<LogLine>>)
    ensures r.None? <==> id !in st
    ensures r.Some? ==> r.value == LogsView(st[id].logs, level, limit)
  {
    match Get(st, id)
    case None => None
    case Some(s) => Some(LogsView(s.logs, level, limit))
  }

  /**
   * The body of `get_logs_view`: filter by the upper-cased level first, then
   * keep the last `limit` entries when `limit >= 0`, where `limit == 0` keeps
   * all of them and a negative limit is ignored. The result is an in-order
   * subsequence of the log whose entries all have the requested level, and it
   * is the newest part of the matching entries.
   */
  function LogsView(logs: seq<LogLine>, level: Option<string>, limit: Option<int>): (r: seq<LogLine>)
    ensures IsSubsequence(r, logs)
    ensures Truthy(level) ==> forall i | 0 <= i < |r| :: r[i].level == Upper(level.value)
    ensures var m := Matching(logs, level);
      && |r| <= |m| && r == m[|m| - |r|..]
      && (limit.Some? && limit.value > 0 ==> |r| == (if |m| <= limit.value then |m| else limit.value))
      && (limit.None? || limit.value <= 0 ==> r == m)
  {
    var m := Matching(logs, level);
    var r := Trim(m, limit);
    MatchingKeepsOrder(logs, level);
    SuffixKeepsLevel(m, |m| - |r|, if Truthy(level) then Upper(level.value) else "");
    SubsequenceSuffix(m, logs, |m| - |r|);
    r
  }

  /**
   * The `[-limit:]` cut of `get_logs_view`: applied when `limit >= 0`, where
   * 0 keeps everything; a negative or missing limit keeps everything too.
   */
  function Trim(m: seq<LogLine>, limit: Option<int>): (r: seq<LogLine>)
    ensures |r| <= |m| && r == m[|m| - |r|..]
    ensures limit.Some? && limit.value > 0 ==> |r| == (if |m| <= limit.value then |m| else limit.value)
    ensures limit.None? || limit.value <= 0 ==> r == m
  {
    if limit.Some? && limit.value >= 0 then PyTail(m, limit.value)
    else assert m[0..] == m; m
  }

  /** The level filter keeps log order, and with a truthy level only that level. */
  lemma MatchingKeepsOrder(logs: seq<LogLine>, level: Option<string>)
    ensures IsSubsequence(Matching(logs, level), logs)
    ensures Truthy(level) ==>
      forall i | 0 <= i < |Matching(logs, level)| :: Matching(logs, level)[i].level == Upper(level.value)
  {
    if !Truthy(level) {
      SubsequenceReflexive(logs);
    }
  }

  /** A suffix of entries that all have one level has only that level too. */
  lemma SuffixKeepsLevel(m: seq<LogLine>, k: nat, level: string)
    requires k <= |m|
    ensures (forall i | 0 <= i < |m| :: m[i].level == level) ==> forall i | 0 <= i < |m[k..]| :: m[k..][i].level == level
  {
    if forall i | 0 <= i < |m| :: m[i].level == level {
      forall i | 0 <= i < |m[k..]|
        ensures m[k..][i].level == level
      {
        assert m[k..][i] == m[k + i];
      }
    }
  }

  lemma {:induction false} SubsequenceReflexive(xs: seq<LogLine>)
    ensures IsSubsequence(xs, xs)
    decreases |xs|
  {
    if |xs| > 0 {
      SubsequenceReflexive(xs[1..]);
    }
  }

  /**
   * Right after `append_log` at a truthy level, asking for that level with
   * limit 1 returns exactly the entry just written.
   */
  lemma NewestLogIsLast(st: Store, id: string, level: string, message: string, now: real)
    requires id in st && level != ""
    ensures GetLogsView(AppendLog(st, id, level, message, now), id, Some(level), Some(1))
      == Some([LogLine(now, Upper(level), message)])
  {
    AppendLogNewest(st, id, level, message, now);
    ViewOfNewest(AppendLog(st, id, level, message, now), id, level, LogLine(now, Upper(level), message));
  }

  /** A record whose newest entry has a non-empty level shows that entry alone at limit 1. */
  lemma ViewOfNewest(st: Store, id: string, level: string, e: LogLine)
    requires id in st && level != "" && e.level == Upper(level)
    requires |st[id].logs| > 0 && st[id].logs[|st[id].logs| - 1] == e
    ensures GetLogsView(st, id, Some(level), Some(1)) == Some([e])
  {
    GetLogsViewLimited(st, id, Some(level), 1);
    assert Matching(st[id].logs, Some(level)) == WithLevel(st[id].logs, Upper(level));
    NewestMatchIsTail(st[id].logs, Upper(level));
  }

  lemma GetLogsViewLimited(st: Store, id: string, level: Option<string>, limit: nat)
    requires id in st
    ensures GetLogsView(st, id, level, Some(limit)) == Some(PyTail(Matching(st[id].logs, level), limit))
  {
  }

  /** The last match of a log whose newest entry has the level is that entry alone. */
  lemma NewestMatchIsTail(logs: seq<LogLine>, level: string)
    requires |logs| > 0 && logs[|logs| - 1].level == level
    ensures PyTail(WithLevel(logs, level), 1) == [logs[|logs| - 1]]
  {
    LastMatchIsLast(logs, level);
    var m := WithLevel(logs, level);
    var v := PyTail(m, 1);
    assert |v| == 1 && v == m[|m| - 1..];
    assert v[0] == m[|m| - 1];
  }

  lemma {:induction false} LastMatchIsLast(logs: seq<LogLine>, level: string)
    requires |logs| > 0 && logs[|logs| - 1].level == level
    ensures var m := WithLevel(logs, level); |m| > 0 && m[|m| - 1] == logs[|logs| - 1]
    decreases |logs|
  {
    if |logs| > 1 {
      LastMatchIsLast(logs[1..], level);
    }
  }

  /** After `mark_finished` the stats view reports COMPLETED exactly on success. */
  lemma FinishedStatsView(st: Store, id: string, success: bool, totals: map<string, int>,
                          startedAt: Option<real>, now: real, logNow: real)
    requires id in st
    ensures var v := GetStatsView(MarkFinished(st, id, success, totals, startedAt, now, logNow), id);
      && v.Some? && v.value.success == success
      && (v.value.status == COMPLETED <==> success)
      && v.value.finishedAt == Some(now) && v.value.durationSeconds >= 0.0
  {
  }
}

=== FILE: text.dfy ===
/**
 * The few pieces of Python string behaviour the service relies on:
 * `str.strip()`, `str.lower()`, `str.upper()`, the `in` substring test,
 * `str.startswith` and `str(int)`.
 */
module Text {
  import opened Wrappers

  /**
   * The characters Python's `str.isspace()` accepts, which `str.strip()`
   * removes: space, tab to carriage return, the four information separators
   * U+001C to U+001F, U+0085, U+00A0, U+1680, U+2000 to U+200A, U+2028,
   * U+2029, U+202F, U+205F and U+3000.
   */
  const SpaceChars: seq<char> := [
    '\U{20}', '\U{9}', '\U{A}', '\U{B}', '\U{C}', '\U{D}', '\U{1C}', '\U{1D}', '\U{1E}', '\U{1F}',
    '\U{85}', '\U{A0}', '\U{1680}', '\U{2000}', '\U{2001}', '\U{2002}', '\U{2003}', '\U{2004}',
    '\U{2005}', '\U{2006}', '\U{2007}', '\U{2008}', '\U{2009}', '\U{200A}', '\U{2028}', '\U{2029}',
    '\U{202F}', '\U{205F}', '\U{3000}']

  predicate IsSpace(c: char) {
    c in SpaceChars
  }

  /** A printable ASCII character other than the space is not whitespace. */
  lemma GraphicNotSpace(c: char)
    requires '!' <= c <= '~'
    ensures !IsSpace(c)
  {
  }

  /** True iff every character of `s` is whitespace (vacuously true of ""). */
  predicate AllSpace(s: string) {
    forall k | 0 <= k < |s| :: IsSpace(s[k])
  }

  lemma {:induction false} AllSpaceAt(s: string, k: nat)
    requires AllSpace(s) && k < |s|
    ensures IsSpace(s[k])
    decreases k
  {
    if k > 0 {
      AllSpaceAt(s[1..], k - 1);
    }
  }

  /** The number of whitespace characters at the front of `s`. */
  function LeadingSpace(s: string): (n: nat)
    ensures n <= |s|
    ensures AllSpace(s[..n])
    ensures n < |s| ==> !IsSpace(s[n])
  {
    if |s| > 0 && IsSpace(s[0]) then
      var n := LeadingSpace(s[1..]);
      var cut := s[..n + 1];
      assert cut[0] == s[0] && cut[1..] == s[1..][..n];
      n + 1
    else
      assert s[..0] == [];
      0
  }

  /** The length of `s` without its trailing whitespace. */
  function TextEnd(s: string): (n: nat)
    ensures n <= |s|
    ensures AllSpace(s[n..])
    ensures n > 0 ==> !IsSpace(s[n - 1])
  {
    if |s| > 0 && IsSpace(s[|s| - 1]) then
      var n := TextEnd(s[..|s| - 1]);
      AllSpaceSnoc(s, n);
      n
    else
      assert s[|s|..] == [];
      |s|
  }

  /** A whitespace run followed by one more whitespace character. */
  lemma {:induction false} AllSpaceSnoc(s: string, n: nat)
    requires n < |s| && AllSpace(s[..|s| - 1][n..]) && IsSpace(s[|s| - 1])
    ensures AllSpace(s[n..])
    decreases |s| - n
  {
    assert s[n..][0] == s[n];
    assert s[n..][1..] == s[n + 1..];
    if n == |s| - 1 {
      assert s[n + 1..] == [];
    } else {
      assert s[..|s| - 1][n..][0] == s[n];
      assert s[..|s| - 1][n..][1..] == s[..|s| - 1][n + 1..];
      AllSpaceSnoc(s, n + 1);
    }
  }

  /** Whitespace up to `i` and from `i` on: all whitespace. */
  lemma {:induction false} AllSpaceSplit(s: string, i: nat)
    requires i <= |s| && AllSpace(s[..i]) && AllSpace(s[i..])
    ensures AllSpace(s)
    decreases i
  {
    if i == 0 {
      assert s[0..] == s;
    } else {
      assert s[..i][1..] == s[1..][..i - 1];
      assert s[i..] == s[1..][i - 1..];
      AllSpaceSplit(s[1..], i - 1);
    }
  }

  /** `s[i..j]` is what is left of `s` once whitespace-only ends are cut away. */
  predicate StripWindow(s: string, i: int, j: int) {
    0 <= i <= j <= |s| && AllSpace(s[..i]) && AllSpace(s[j..])
  }

  /**
   * Python's `s.strip()`: the slice of `s` left after removing the leading and
   * trailing whitespace. The result is a contiguous slice of `s`, everything
   * cut away is whitespace, and the result neither starts nor ends with it.
   */
  function Strip(s: string): (r: string)
    ensures exists i, j :: StripWindow(s, i, j) && r == s[i..j]
    ensures |r| > 0 ==> !IsSpace(r[0]) && !IsSpace(r[|r| - 1])
  {
    var i := LeadingSpace(s);
    var k := TextEnd(s[i..]);
    StripBounds(s);
    SliceEdges(s, i, k);
    s[i..i + k]
  }

  /** The window Strip keeps: whitespace-only ends, and no whitespace at its own ends. */
  lemma StripBounds(s: string)
    ensures var i := LeadingSpace(s);
      var k := TextEnd(s[i..]);
      && StripWindow(s, i, i + k)
      && (k > 0 ==> !IsSpace(s[i]) && !IsSpace(s[i + k - 1]))
  {
    var i := LeadingSpace(s);
    var k := TextEnd(s[i..]);
    DropDrop(s, i, k);
    if k > 0 {
      DropIndex(s, i, k - 1);
    }
  }

  lemma DropDrop(s: string, i: nat, k: nat)
    requires i + k <= |s|
    ensures s[i..][k..] == s[i + k..]
  {
  }

  lemma DropIndex(s: string, i: nat, j: nat)
    requires i + j < |s|
    ensures s[i..][j] == s[i + j]
  {
  }

  /** The ends of `s[i..i + k]` are the characters at `i` and `i + k - 1`. */
  lemma SliceEdges(s: string, i: nat, k: nat)
    requires i + k <= |s|
    requires k > 0 ==> !IsSpace(s[i]) && !IsSpace(s[i + k - 1])
    ensures var r := s[i..i + k]; |r| > 0 ==> !IsSpace(r[0]) && !IsSpace(r[|r| - 1])
  {
    if k > 0 {
      assert s[i..i + k][0] == s[i];
      assert s[i..i + k][k - 1] == s[i + k - 1];
    }
  }

  /** A line is blank exactly when it is all whitespace. */
  lemma StripEmptyIffAllSpace(s: string)
    ensures Strip(s) == "" <==> AllSpace(s)
  {
    var i := LeadingSpace(s);
    var k := TextEnd(s[i..]);
    assert |Strip(s)| == k;
    if k == 0 {
      assert s[i..][0..] == s[i..];
      AllSpaceSplit(s, i);
    } else if AllSpace(s) {
      AllSpaceAt(s, i);
    }
  }

  /** A string with no whitespace at either end is left alone by `strip()`. */
  lemma StripNoEdgeSpace(s: string)
    requires |s| > 0 && !IsSpace(s[0]) && !IsSpace(s[|s| - 1])
    ensures Strip(s) == s
  {
    assert LeadingSpace(s) == 0;
    assert s[0..] == s;
    assert TextEnd(s) == |s|;
  }

  /** Python's `str.lower()` on ASCII letters. */
  function LowerChar(c: char): char {
    if 'A' <= c <= 'Z' then (c as int + 32) as char else c
  }

  /**
   * Lower-casing does not produce the lower-case letter `c` from a string
   * holding neither `c` nor its upper-case form.
   */
  lemma LowerAvoids(s: string, c: char)
    requires 'a' <= c <= 'z'
    requires forall k | 0 <= k < |s| :: s[k] != c && s[k] != (c as int - 32) as char
    ensures forall k | 0 <= k < |Lower(s)| :: Lower(s)[k] != c
  {
  }

  /** Python's `str.upper()` on ASCII letters. */
  function UpperChar(c: char): char {
    if 'a' <= c <= 'z' then (c as int - 32) as char else c
  }

  function Lower(s: string): (r: string)
    ensures |r| == |s|
  {
    seq(|s|, i requires 0 <= i < |s| => LowerChar(s[i]))
  }

  function Upper(s: string): (r: string)
    ensures |r| == |s|
  {
    seq(|s|, i requires 0 <= i < |s| => UpperChar(s[i]))
  }

  /** Upper-casing leaves a string without lower-case ASCII letters alone. */
  lemma UpperIdentity(s: string)
    requires forall i | 0 <= i < |s| :: !('a' <= s[i] <= 'z')
    ensures Upper(s) == s
  {
  }

  /** `sub` occurs in `s` starting at index `i`. */
  predicate OccursAt(s: string, sub: string, i: nat) {
    i + |sub| <= |s| && s[i..i + |sub|] == sub
  }

  /** Python's `sub in s`. */
  predicate Contains(s: string, sub: string) {
    exists i: nat | i <= |s| :: OccursAt(s, sub, i)
  }

  /** A string lacking some character of `sub` does not contain `sub`. */
  lemma NotContainsMissing(s: string, sub: string, j: nat)
    requires j < |sub|
    requires forall k | 0 <= k < |s| :: s[k] != sub[j]
    ensures !Contains(s, sub)
  {
    forall i: nat | i <= |s| ensures !OccursAt(s, sub, i) {
      if i + |sub| <= |s| {
        assert s[i..i + |sub|][j] == s[i + j];
      }
    }
  }

  /** Python's `s.startswith(prefix)`. */
  predicate StartsWith(s: string, prefix: string) {
    |prefix| <= |s| && s[..|prefix|] == prefix
  }

  function DigitChar(d: nat): (c: char)
    requires d < 10
    ensures '0' <= c <= '9' && DigitValue(c) == d
  {
    "0123456789"[d]
  }

  /** Python's `str(n)` for a non-negative integer. */
  function NatToString(n: nat): (r: string)
    ensures |r| > 0
    decreases n
  {
    if n < 10 then [DigitChar(n)] else NatToString(n / 10) + [DigitChar(n % 10)]
  }

  /** `str(n)` consists of decimal digits only. */
  lemma {:induction false} NatToStringDigits(n: nat)
    ensures forall k | 0 <= k < |NatToString(n)| :: IsDigit(NatToString(n)[k])
    decreases n
  {
    if n >= 10 {
      NatToStringDigits(n / 10);
    }
  }

  /** Python's `str(i)` for any integer. */
  function IntToString(i: int): (r: string)
    ensures |r| > 0
  {
    if i < 0 then "-" + NatToString(-i) else NatToString(i)
  }

  function DigitValue(c: char): nat {
    if '0' <= c <= '9' then c as int - '0' as int else 0
  }

  /** Reads back a string of decimal digits. */
  function ParseDigits(s: string): nat {
    if |s| == 0 then 0 else ParseDigits(s[..|s| - 1]) * 10 + DigitValue(s[|s| - 1])
  }

  predicate IsDigit(c: char) {
    '0' <= c <= '9'
  }

  /** The number of decimal digits at the front of `s`. */
  function DigitRun(s: string): (n: nat)
    ensures n <= |s|
    decreases |s|
  {
    if |s| > 0 && IsDigit(s[0]) then 1 + DigitRun(s[1..]) else 0
  }

  /** Reads the longest run of decimal digits off the front of `s`, with the text after it. */
  function ReadNat(s: string): (nat, string) {
    var n := DigitRun(s);
    (ParseDigits(s[..n]), s[n..])
  }

  /**
   * Reads an integer off the front of `s`: an optional minus sign and then
   * the longest run of decimal digits. Gives the number and the text after it.
   */
  function ReadInt(s: string): (int, string) {
    if |s| > 0 && s[0] == '-' then
      var p := ReadNat(s[1..]);
      (-(p.0 as int), p.1)
    else
      var p := ReadNat(s);
      (p.0 as int, p.1)
  }

  /** The text after the fixed `prefix`, when `s` starts with it. */
  function Expect(s: string, prefix: string): (r: Option<string>)
    ensures r.Some? <==> StartsWith(s, prefix)
    ensures r.Some? ==> s == prefix + r.value
  {
    if StartsWith(s, prefix) then Some(s[|prefix|..]) else None
  }

  lemma ExpectConcat(prefix: string, rest: string)
    ensures Expect(prefix + rest, prefix) == Some(rest)
  {
    assert (prefix + rest)[..|prefix|] == prefix;
  }

  /** A run of digits followed by a non-digit is read up to the non-digit. */
  lemma {:induction false} DigitRunOfDigits(d: string, rest: string)
    requires forall k | 0 <= k < |d| :: IsDigit(d[k])
    requires |rest| == 0 || !IsDigit(rest[0])
    ensures DigitRun(d + rest) == |d|
    decreases |d|
  {
    if |d| == 0 {
      assert d + rest == rest;
    } else {
      assert (d + rest)[1..] == d[1..] + rest;
      DigitRunOfDigits(d[1..], rest);
    }
  }

  /** The digits of `str(n)`, followed by a non-digit, read back as `n`. */
  lemma NatReadBack(n: nat, rest: string)
    requires |rest| == 0 || !IsDigit(rest[0])
    ensures ReadNat(NatToString(n) + rest) == (n, rest)
  {
    var d := NatToString(n);
    NatToStringDigits(n);
    DigitRunOfDigits(d, rest);
    NatToStringRoundTrip(n);
    assert (d + rest)[..|d|] == d;
    assert (d + rest)[|d|..] == rest;
  }

  lemma ReadIntSigned(d: string, rest: string)
    ensures ReadInt(("-" + d) + rest) == (-(ReadNat(d + rest).0 as int), ReadNat(d + rest).1)
  {
    assert (("-" + d) + rest)[1..] == d + rest;
  }

  lemma ReadIntUnsigned(s: string)
    requires |s| > 0 && IsDigit(s[0])
    ensures ReadInt(s) == (ReadNat(s).0 as int, ReadNat(s).1)
  {
  }

  /**
   * `str(i)` loses nothing, sign included: read back from the front of any
   * text that does not continue with a digit, it gives `i` and that text.
   */
  lemma IntToStringRoundTrip(i: int, rest: string)
    requires |rest| == 0 || !IsDigit(rest[0])
    ensures ReadInt(IntToString(i) + rest) == (i, rest)
  {
    if i < 0 {
      NegativeReadBack(i, rest);
    } else {
      NonNegativeReadBack(i, rest);
    }
  }

  lemma NegativeReadBack(i: int, rest: string)
    requires i < 0
    requires |rest| == 0 || !IsDigit(rest[0])
    ensures ReadInt(IntToString(i) + rest) == (i, rest)
  {
    MinusDigitsReadBack(-i, rest);
  }

  /** `str(-n)` for a positive `n` is a minus sign before the digits of `n`, and reads back as `-n`. */
  lemma MinusDigitsReadBack(n: nat, rest: string)
    requires n > 0
    requires |rest| == 0 || !IsDigit(rest[0])
    ensures ReadInt(IntToString(-(n as int)) + rest) == (-(n as int), rest)
  {
    NatReadBack(n, rest);
    ReadIntSigned(NatToString(n), rest);
  }

  lemma NonNegativeReadBack(i: int, rest: string)
    requires i >= 0
    requires |rest| == 0 || !IsDigit(rest[0])
    ensures ReadInt(IntToString(i) + rest) == (i, rest)
  {
    var d := NatToString(i);
    NatReadBack(i, rest);
    assert (d + rest)[0] == d[0];
    ReadIntUnsigned(d + rest);
  }

  /** `str(n)` loses nothing: its digits read back as `n`. */
  lemma {:induction false} NatToStringRoundTrip(n: nat)
    ensures ParseDigits(NatToString(n)) == n
    decreases n
  {
    var s := NatToString(n);
    if n < 10 {
      assert s[..0] == [];
    } else {
      NatToStringRoundTrip(n / 10);
      assert s[..|s| - 1] == NatToString(n / 10);
    }
  }
}

=== FILE: wrappers.dfy ===
/** Optional values, standing for Python's `Optional[...]` and `None`. */
module Wrappers {

  /**
   * `None` or `Some(value)`. The three members below let a read-back written
   * with `:-` stop at the first part that does not match.
   */
  datatype Option<+T> = None | Some(value: T) {

    predicate IsFailure() {
      None?
    }

    function PropagateFailure<U>(): Option<U>
      requires None?
    {
      None
    }

    function Extract(): T
      requires Some?
    {
      value
    }
  }
}
